=== FILE: README.md ===
# RNAComposer helpers and the CASP test-set table, in Dafny

This project models the pure logic inside four small Python scripts of the
garn3-casp15_16 repository. It proves what that logic guarantees.

- **The MODEL/ENDMDL splitter** is shared by the batch script
  (`RNAComposer/split_all_pdbs.py`) and the single-file script
  (`RNAComposer/7QR4/split_pdb_models.py`). It makes one pass over the lines
  of a PDB file and writes each model block to `<stem>_model_<idx>.pdb`
  beside the source.
  - `PdbSplit.Split` models that pass as a left fold over the lines.
  - `PdbSplit.Spans` describes the result independently, by positions: a
    block starts at every MODEL line whose next marker line is not another
    MODEL line.
  - `SplitCharacterised` proves that the fold and the position-based
    description agree.
  - `SplitAll` adds the batch's skip rule for files already split, its
    counts and the files left on disk.
  - `SplitSingle` writes the single-file script's loop as an imperative loop
    with an invariant. It proves that loop computes `Split`, and models exit
    code 2 for a missing file.
- **The folder renamer** (`RNAComposer/rename_folders_by_pdb.py`) looks at
  every `rnacomposer-*` directory of its root. It renames the directory after
  the PDB id it finds in its file names, or records it as skipped when it
  finds none. If the id's name is taken, it uses the smallest free
  `<id>_<n>` with `n >= 2`.
  - `RenameAllComplete` proves that, over a listing with distinct names,
    each candidate directory is renamed exactly when an id is found and
    skipped exactly when none is.
  - `RenameAllTargets` proves that each rename ends at the id or at
    `<id>_<n>`.
  - The root listing is a sequence of entries.
  - The names present in the root are a set that each rename updates.
- **The test-set table** (`generate_molecule_test_set_table.py`) builds a
  LaTeX `tabular` with one row per molecule, between fixed header and footer
  lines.
  - `TestSetTable` assembles the lines for any layout of fixed lines.
  - `TestSetFile` fixes the script's own layout and joins the lines with
    line feeds.

Shared pieces:
- `Text` models the Python string operations used:
  - `startswith`, `endswith` and `in`;
  - `split()`, `strip()` and `rstrip(c)`;
  - `int()` on a token, and `str()` of an integer;
  - `sep.join` and `split(sep)`.
- `Paths` models `PurePath.stem` and the output file name.
- `Wrappers` provides `Option`.

Files, directories and their contents are parameters:
- the lines of a file are a `seq<string>`;
- a directory walk is the sequence of files it yields;
- "exists" is membership in a set of names;
- what a run leaves on disk is a map updated by its writes, in order.

## Model

| member | source | states |
|---|---|---|
| PdbSplit.Split | RNAComposer/split_all_pdbs.py:28-61 | The pass over one file: `Step` on every line from the start state, then `Finish`. `SplitCharacterised` states what it writes; `SplitModels` shows the single-file loop computes the same. |
| PdbSplit.Step | RNAComposer/split_all_pdbs.py:34-53 | One loop iteration, with the three branches of the source. `StepGathers`, `StepCloses`, `OpenRestarts` and `IdleFold` state what each branch does to the state. |
| PdbSplit.Fold | RNAComposer/split_all_pdbs.py:33-53 | The loop over the lines: `Step` on each line in input order. `FoldAppend` and `FoldAt` state how it splits over the input, and `IdleAgrees` relates it to the reference spans. |
| PdbSplit.Finish | RNAComposer/split_all_pdbs.py:54-61 | The trailing block: a model still open with gathered lines is written unterminated under `TrailingIndex`. `OpenEnds` relates it to the reference spans. |
| PdbSplit.NextIndex | RNAComposer/split_all_pdbs.py:37-42 | The index a MODEL line sets. `ModelLineIndex`, `BareModelLineIndex` and `ParseIntRejects` state its value; see "Left out". |
| PdbSplit.IndexBefore | RNAComposer/split_all_pdbs.py:31-42 | The reference for the index in force after the first `p` lines. It starts at 0, and every MODEL line updates it, including the lines of blocks never written. `IndexSteady` shows other lines leave it unchanged, and `IndexRule` gives each written block its index from it. |
| PdbSplit.SplitCharacterised | RNAComposer/split_all_pdbs.py:28-61 | The blocks the pass writes are exactly the slices of the reference spans, in input order. Each span starts at a MODEL line whose next marker is ENDMDL (or is missing) and runs through that ENDMDL or to the end of input. Every such MODEL line starts a span, spans do not overlap, and each block's index follows the index rule. |
| PdbSplit.SpanContents | RNAComposer/split_all_pdbs.py:34-53 | A written block starts with its MODEL line and holds no other marker line. It ends with an ENDMDL line exactly when it is terminated. An unterminated block reaches the end of the input. |
| PdbSplit.IdleLinesDropped | RNAComposer/split_all_pdbs.py:43-53 | Lines read while no model is open go to no output, a stray ENDMDL among them. A prefix with no MODEL line does not change the split. |
| PdbSplit.IdleLinesBetween | RNAComposer/split_all_pdbs.py:43-53 | The same anywhere in the input: lines with no MODEL line that arrive while no model is open can be removed without changing the split. |
| PdbSplit.OpenBlockDiscarded | RNAComposer/split_all_pdbs.py:34-36 | A MODEL line that arrives while a block is open discards that block. Whatever it had gathered never reaches any output. |
| PdbSplit.SplitNonEmptyIff | RNAComposer/split_all_pdbs.py:34-61 | Some block is written exactly when the input has a MODEL line. |
| PdbSplit.SomeOpener | RNAComposer/split_all_pdbs.py:34-61 | After any MODEL line, some MODEL line opens a block that gets written. |
| PdbSplit.ClosedModelsSplit | RNAComposer/split_all_pdbs.py:33-53 | Input made of N well-formed models in a row (MODEL, body without markers, ENDMDL), read from an idle state, adds exactly N blocks after the earlier ones. Each block holds its model verbatim and is terminated. |
| PdbSplit.ClosedModelsCount | RNAComposer/split_all_pdbs.py:33-61 | A file made of N well-formed models splits into exactly those N blocks, verbatim and terminated. |
| PdbSplit.ClosedModelFold | RNAComposer/split_all_pdbs.py:34-51 | One well-formed model read from an idle state emits one terminated block holding the model, with the index set by its MODEL line. It leaves the pass idle. |
| PdbSplit.TrailingIndex | RNAComposer/split_all_pdbs.py:55-56 | `model_idx or 1`: an index of 0 becomes exactly 1, and a non-zero index is kept. |
| PdbSplit.NextMarker | RNAComposer/split_all_pdbs.py:34-53 | This is the first position at or after `from` that holds a MODEL or ENDMDL line, or the end of input. |
| PdbSplit.Spans | RNAComposer/split_all_pdbs.py:28-61 | The reference spans found with no model open lie within the input, at or after the starting position. |
| PdbSplit.SpansFromModel | RNAComposer/split_all_pdbs.py:34-61 | The reference spans after an opening MODEL line lie within the input, from that line on. |
| PdbSplit.Materialise | RNAComposer/split_all_pdbs.py:44-47 | Spans become blocks one to one. What each block holds is stated by `MaterialiseAt`. |
| PdbSplit.MaterialiseAt | RNAComposer/split_all_pdbs.py:44-59 | Block k holds exactly the input lines of span k, with span k's index and terminated flag. |
| PdbSplit.SpansShape | RNAComposer/split_all_pdbs.py:34-53 | The reference spans have the shape of written blocks and are ordered without overlap. |
| PdbSplit.SpansFromModelShape | RNAComposer/split_all_pdbs.py:34-53 | The same holds for the spans after an opening MODEL line. |
| PdbSplit.FirstSpanShape | RNAComposer/split_all_pdbs.py:43-61 | A MODEL line not cut short by another MODEL line opens a span of block shape. The span is terminated exactly when an ENDMDL follows. |
| PdbSplit.ConsWellFormed | RNAComposer/split_all_pdbs.py:34-53 | Putting a well-shaped span before later well-formed spans keeps them well formed. |
| PdbSplit.MaterialiseCons | RNAComposer/split_all_pdbs.py:44-47 | Proof step: the blocks of a span followed by other spans are its slice followed by theirs. |
| PdbSplit.FoldAt | RNAComposer/split_all_pdbs.py:33 | Proof step: reading the lines from `p` on is one step on line `p`, then reading the rest. |
| PdbSplit.IdleAgrees | RNAComposer/split_all_pdbs.py:33-61 | From an idle state at any position, the rest of the pass emits exactly the blocks of the reference spans from there. |
| PdbSplit.OpenAgrees | RNAComposer/split_all_pdbs.py:33-61 | With a model open and gathered up to `p`, the rest of the pass emits exactly the reference spans that follow its MODEL line. |
| PdbSplit.OpenAtMarker | RNAComposer/split_all_pdbs.py:34-61 | An open model that has reached its next marker line, or the end of input, emits exactly the reference spans that follow its MODEL line. |
| PdbSplit.OpenEnds | RNAComposer/split_all_pdbs.py:54-61 | A model still open at the end of the input is written as one unterminated block under `TrailingIndex`, which is the one span its MODEL line yields. |
| PdbSplit.OpenRestarts | RNAComposer/split_all_pdbs.py:34-36 | A MODEL line reached while a model is open restarts the pass there, with the index unchanged. |
| PdbSplit.OpenCloses | RNAComposer/split_all_pdbs.py:43-51 | An ENDMDL line reached while a model is open emits that model's block, then the pass continues idle. |
| PdbSplit.ClosedSpanFirst | RNAComposer/split_all_pdbs.py:43-47 | A block closed by ENDMDL is the first block of the reference spans from its MODEL line. |
| PdbSplit.OpenGathers | RNAComposer/split_all_pdbs.py:52-53 | A non-marker line read while a model is open is appended to it. |
| PdbSplit.OpenEndStep | RNAComposer/split_all_pdbs.py:43-51 | An ENDMDL read while a model is open appends the line, emits the block as terminated, and returns to idle. |
| PdbSplit.StepGathers | RNAComposer/split_all_pdbs.py:52-53 | Proof step: one step on a non-marker line with a model open only extends the gathered lines. |
| PdbSplit.StepCloses | RNAComposer/split_all_pdbs.py:43-51 | Proof step: one step on an ENDMDL with a model open closes the block and resets the gathered lines. |
| PdbSplit.MarkerHeads | RNAComposer/split_all_pdbs.py:34-43 | A MODEL line starts with `M` and an ENDMDL line with `E`, so no line is both. |
| PdbSplit.ModelLineIndex | RNAComposer/split_all_pdbs.py:34-40 | A MODEL line laid out as in the PDB format (`MODEL`, whitespace, a serial number, then nothing or whitespace) sets the index to that number, whatever the previous index was. |
| PdbSplit.BareModelLineIndex | RNAComposer/split_all_pdbs.py:38-42 | A MODEL line with no second token moves the index on by one. |
| PdbSplit.IndexSteady | RNAComposer/split_all_pdbs.py:31-42 | The index does not change across lines without a MODEL line. |
| PdbSplit.SpansIndex | RNAComposer/split_all_pdbs.py:31-42 | The index rule holds for every reference span. The index starts at 0, and every MODEL line sets it from the index in force before it, including MODEL lines whose blocks are never written. |
| PdbSplit.SpansFromModelIndex | RNAComposer/split_all_pdbs.py:38-56 | The same holds for the spans after an opening MODEL line. A block left open with index 0 gets 1. |
| PdbSplit.SpansFind | RNAComposer/split_all_pdbs.py:34-61 | Every MODEL line that opens a block starts one of the reference spans. |
| PdbSplit.SpansFromModelFind | RNAComposer/split_all_pdbs.py:34-61 | The same holds for the spans after an opening MODEL line. |
| PdbSplit.FoldAppend | RNAComposer/split_all_pdbs.py:33 | Reading `a + b` is reading `a` and then `b`. |
| PdbSplit.IdleFold | RNAComposer/split_all_pdbs.py:43-53 | From any state with no model open, lines without a MODEL line leave the state unchanged. |
| PdbSplit.GatherFold | RNAComposer/split_all_pdbs.py:52-53 | With a model open, lines without markers are gathered verbatim. |
| SplitAll.FileWrites | RNAComposer/split_all_pdbs.py:24-61 | The writes for one file: none for a split output, otherwise one per block of `Split`. `FileWritesIff` and `OutputsAreSkipped` state when there are any. |
| SplitAll.FileWritesIff | RNAComposer/split_all_pdbs.py:24-63 | Something is written for a file exactly when its name is not that of a split output and it has a MODEL line. |
| SplitAll.AlreadySplit | RNAComposer/split_all_pdbs.py:24 | The skip test: the name ends in `.pdb` and its stem contains `_model_`. `OutputsAreSkipped` shows every output name passes it. |
| SplitAll.RunCounts | RNAComposer/split_all_pdbs.py:20-63 | The processed count is the number of files not already split that have a MODEL line. The skipped count is the number of already split files. The number of writes is the sum of each file's number of writes. |
| SplitAll.RunWritesBlock | RNAComposer/split_all_pdbs.py:22-61 | The writes for file k appear in the run as one contiguous block, right after the writes of every file the walk visited before it. So the run writes every file's blocks, file by file, in walk order. |
| SplitAll.RunIsFlatMap | RNAComposer/split_all_pdbs.py:22-61 | The run's writes are the files' writes concatenated in walk order, and their number is the sum of the files' numbers. |
| SplitAll.FlatMapBlock | RNAComposer/split_all_pdbs.py:22-61 | In outputs concatenated in order, the output of element k starts after those of the elements before it and is kept whole. |
| SplitAll.RunAppend | RNAComposer/split_all_pdbs.py:22-61 | Walking two lists of files in turn writes what each walk writes, in turn. |
| SplitAll.Run | RNAComposer/split_all_pdbs.py:15-63 | The run finds every file, and processed plus skipped never exceeds found. |
| SplitAll.WritesOf | RNAComposer/split_all_pdbs.py:45-59 | Each block of a source is written to `<stem>_model_<idx>.pdb` in the source's directory, with the block's lines, one write per block in order. |
| SplitAll.OutputsAreSkipped | RNAComposer/split_all_pdbs.py:24-45 | A file named like the splitter's output is already split, so a second run writes nothing for it. |
| SplitAll.LastWriteWins | RNAComposer/split_all_pdbs.py:46-59 | After all writes, a file holds the lines of the last write to it. |
| SplitAll.Untouched | RNAComposer/split_all_pdbs.py:46-47 | A file that no write names keeps what it held. |
| SplitAll.Apply | RNAComposer/split_all_pdbs.py:46-59 | The files on disk after the writes, applied in order, each replacing the file's contents. `LastWriteWins` and `Untouched` state the result. |
| SplitAll.SameIndexOverwrites | RNAComposer/split_all_pdbs.py:45 | Two blocks of one source land in the same file exactly when their indices are equal. |
| SplitSingle.SplitModels | RNAComposer/7QR4/split_pdb_models.py:16-45 | The single-file script's loop, with its three state variables, writes exactly the blocks of the batch loop (`Split`). |
| SplitSingle.RunScript | RNAComposer/7QR4/split_pdb_models.py:9-45 | A missing file exits with code 2 and writes nothing. Otherwise each block is written in the file's own directory as `<stem>_model_<idx>.pdb`, with its lines, in order. |
| Paths.Stem | RNAComposer/split_all_pdbs.py:24 | The stem is a prefix of the name. When it is shorter, it stops at the last dot of the name, and that dot is neither the first nor the last character. When it is the whole name, the name has no such dot. |
| Paths.OutputName | RNAComposer/split_all_pdbs.py:45 | The name `<stem>_model_<idx>.pdb`. `OutputStem` and `OutputNameInjective` state its properties. |
| Paths.OutputStem | RNAComposer/split_all_pdbs.py:45 | The stem of `<stem>_model_<idx>.pdb` is `<stem>_model_<idx>`. |
| Paths.OutputNameInjective | RNAComposer/7QR4/split_pdb_models.py:31-42 | Two models of one source get the same output name exactly when their indices are equal. |
| RenameFolders.RenameAll | RNAComposer/rename_folders_by_pdb.py:11-52 | The whole loop over the sorted listing, from the original names. `RenameAllComplete` and `RenameAllTargets` state which directories are renamed or skipped and to what; `RenameAllFacts` and its corollaries state the names in the root. |
| RenameFolders.VisitAll | RNAComposer/rename_folders_by_pdb.py:11 | The loop over the listing in order, one `Visit` per entry. `VisitAllKeeps`, `VisitAllSources`, `VisitAllSkips` and `VisitAllCovers` state what it records. |
| RenameFolders.IsCandidate | RNAComposer/rename_folders_by_pdb.py:12-15 | Only directories whose name starts with `rnacomposer-` are looked at. `VisitOutcome` shows any other entry changes nothing. |
| RenameFolders.Visit | RNAComposer/rename_folders_by_pdb.py:12-52 | One iteration for one directory entry. `VisitOutcome` lists its three outcomes and `VisitKeeps` the invariant it keeps. |
| RenameFolders.FindId | RNAComposer/rename_folders_by_pdb.py:16-30 | The id found for a directory: the nested search over the three patterns. `SearchPatterns` and `FoundIdShape` state what it finds. |
| RenameFolders.Glob | RNAComposer/rename_folders_by_pdb.py:20 | Globbing `*<suffix>` keeps exactly the listed files ending in the suffix. `GlobConcat` and `GlobSingle` fix their order and number: listing order, once per listed file. |
| RenameFolders.GlobSingle | RNAComposer/rename_folders_by_pdb.py:20 | One file is kept exactly when it ends in the suffix. |
| RenameFolders.GlobConcat | RNAComposer/rename_folders_by_pdb.py:20 | Globbing a listing is globbing its parts in turn, so the matches keep listing order and appear once per listed file. |
| RenameFolders.FirstDotStem | RNAComposer/rename_folders_by_pdb.py:21 | `name.split('.')[0]` is the prefix before the first dot. It has no dot and is followed by a dot when shorter than the name. |
| RenameFolders.IdOfFile | RNAComposer/rename_folders_by_pdb.py:21-25 | The id of one file: the id at the start of the name's part before the first dot. `PdbId` and `FirstDotStem` state both steps. |
| RenameFolders.AlnumRun | RNAComposer/rename_folders_by_pdb.py:23 | This is the longest prefix of ASCII letters and digits. |
| RenameFolders.PdbId | RNAComposer/rename_folders_by_pdb.py:23-25 | An id exists exactly when the stem starts with four letters or digits. The id is a prefix of the stem, 4 to 6 letters or digits long, and greedy: shorter than 6 only when the next character is not a letter or digit. |
| RenameFolders.SearchFiles | RNAComposer/rename_folders_by_pdb.py:20-26 | Over the ids the files yield in order, the search gives nothing exactly when no file yields one, and otherwise the id of the first file that does. |
| RenameFolders.IdsOfAt | RNAComposer/rename_folders_by_pdb.py:23-24 | Position k of the id list is the id extracted from file k. |
| RenameFolders.IdsOfConcat | RNAComposer/rename_folders_by_pdb.py:20-26 | The ids of two file lists in turn are the ids of their concatenation. |
| RenameFolders.SearchStep | RNAComposer/rename_folders_by_pdb.py:20-26 | The first file's id wins, and otherwise the search continues with the rest. |
| RenameFolders.FirstStep | RNAComposer/rename_folders_by_pdb.py:23-26 | A leading id wins; a leading miss leaves the first id of the rest. |
| RenameFolders.SearchPatterns | RNAComposer/rename_folders_by_pdb.py:7-30 | Trying the patterns in order gives the first id among all patterns' files, taken one pattern after the other. |
| RenameFolders.FirstConcat | RNAComposer/rename_folders_by_pdb.py:18-30 | Searching two lists one after the other is searching their concatenation: a hit in the first wins, otherwise the second decides, and no hit in either gives none. |
| RenameFolders.FoundIdShape | RNAComposer/rename_folders_by_pdb.py:23-25 | A found id is 4 to 6 ASCII letters and digits. |
| RenameFolders.Suffixed | RNAComposer/rename_folders_by_pdb.py:43 | The name `<id>_<n>`. `SuffixedInjective` shows distinct `n` give distinct names. |
| RenameFolders.SuffixedInjective | RNAComposer/rename_folders_by_pdb.py:43 | `<id>_<a>` and `<id>_<b>` are equal exactly when `a == b`. |
| RenameFolders.FreeSuffix | RNAComposer/rename_folders_by_pdb.py:41-47 | The `while True` loop ends with the smallest free suffix `m >= n`. Every suffix from `n` below `m` is taken. |
| RenameFolders.Target | RNAComposer/rename_folders_by_pdb.py:34-47 | The target is never taken. It is the id when the id is free; otherwise it is `<id>_<n>` for the smallest free `n >= 2`. |
| RenameFolders.CandidateHasDash | RNAComposer/rename_folders_by_pdb.py:14 | A candidate directory name contains `-`. |
| RenameFolders.TargetHasNoDash | RNAComposer/rename_folders_by_pdb.py:34-47 | A target built from an id of letters and digits contains no `-`. |
| RenameFolders.VisitOutcome | RNAComposer/rename_folders_by_pdb.py:11-50 | A non-candidate entry changes nothing. A candidate without an id is skipped with "no id found". A candidate with an id is renamed to its target, and the set of names is updated. The "already named" branch never fires. |
| RenameFolders.VisitKeeps | RNAComposer/rename_folders_by_pdb.py:11-52 | Visiting one entry preserves the run invariant. The names in the root are the original ones with renamed sources replaced by their targets. Only candidates are renamed or skipped. No target was present at the start, and targets are distinct. |
| RenameFolders.RenameKeeps | RNAComposer/rename_folders_by_pdb.py:49-50 | A rename to a free, dash-free name preserves the run invariant. |
| RenameFolders.RenamedAppend | RNAComposer/rename_folders_by_pdb.py:50 | Recording a rename adds its source and its target to the recorded sets. |
| RenameFolders.VisitAllKeeps | RNAComposer/rename_folders_by_pdb.py:11-52 | The loop over a sorted listing preserves the invariant and records renames in name order. |
| RenameFolders.VisitGrows | RNAComposer/rename_folders_by_pdb.py:49-50 | A visit records at most one rename, whose source is the visited entry. |
| RenameFolders.OrderStep | RNAComposer/rename_folders_by_pdb.py:11 | After visiting the head of a sorted listing, the renames stay in order and before the rest of the listing. |
| RenameFolders.RenameAllFacts | RNAComposer/rename_folders_by_pdb.py:11-52 | For the whole run, directories are renamed in name order, and every new name was free at the start. New names are pairwise distinct. The root ends up holding the original names, with each renamed directory's name replaced by its new one. |
| RenameFolders.RenameAllNames | RNAComposer/rename_folders_by_pdb.py:49-50 | The root ends up holding the original names, with each renamed directory's name replaced by its new one. |
| RenameFolders.RenameAllFresh | RNAComposer/rename_folders_by_pdb.py:34-47 | No new name was present in the root at the start. |
| RenameFolders.RenameAllDistinct | RNAComposer/rename_folders_by_pdb.py:34-50 | No two directories get the same new name, because each rename adds its target to the names later ones avoid. |
| RenameFolders.RenameAllCandidates | RNAComposer/rename_folders_by_pdb.py:12-33 | Only `rnacomposer-` directories are renamed or skipped, and every skip is for lack of an id. |
| RenameFolders.RenameAllOrder | RNAComposer/rename_folders_by_pdb.py:11 | Directories are renamed in name order. |
| RenameFolders.TargetNamedAfter | RNAComposer/rename_folders_by_pdb.py:34-47 | The target for an id is the id or `<id>_<n>` with `n >= 2`. |
| RenameFolders.VisitAllPrefix | RNAComposer/rename_folders_by_pdb.py:11-52 | The loop only appends to the renamed and skipped lists. |
| RenameFolders.VisitRenames | RNAComposer/rename_folders_by_pdb.py:31-50 | A visit records at most one rename, and that rename is from the visited directory, which is a candidate with an id, to a name after its id. |
| RenameFolders.VisitSkips | RNAComposer/rename_folders_by_pdb.py:31-33 | A visit records at most one skip, and that skip is for the visited directory, which is a candidate without an id. |
| RenameFolders.GrowStep | RNAComposer/rename_folders_by_pdb.py:11 | Proof step: if the first entry adds at most one item tied to it and the rest add only items tied to them, every added item is tied to some entry. |
| RenameFolders.VisitAllSources | RNAComposer/rename_folders_by_pdb.py:11-50 | Every rename the loop records is from a candidate of the listing that has an id, to a name after that id. |
| RenameFolders.VisitAllSkips | RNAComposer/rename_folders_by_pdb.py:11-33 | Every skip the loop records is for a candidate of the listing that has no id. |
| RenameFolders.VisitAllCovers | RNAComposer/rename_folders_by_pdb.py:11-50 | Every candidate the loop visits is renamed when it has an id and skipped with "no id found" when it has none. |
| RenameFolders.RenameAllCovers | RNAComposer/rename_folders_by_pdb.py:11-50 | In the whole run, every candidate with an id is renamed and every candidate without one is skipped. |
| RenameFolders.RenameAllTargets | RNAComposer/rename_folders_by_pdb.py:34-50 | In a listing with distinct names, a rename from a directory's name means the directory is a candidate with an id, and the new name is that id or `<id>_<n>` with `n >= 2`. |
| RenameFolders.RenameAllSkipped | RNAComposer/rename_folders_by_pdb.py:31-33 | In a listing with distinct names, a "no id found" skip for a directory's name means the directory is a candidate without an id. |
| RenameFolders.RenameAllComplete | RNAComposer/rename_folders_by_pdb.py:11-52 | In a listing with distinct names, a candidate is renamed exactly when an id is found in it, and skipped with "no id found" exactly when none is. |
| RenameFolders.StrLtTotal | RNAComposer/rename_folders_by_pdb.py:11 | Python's string order is total. |
| RenameFolders.StrLtTransitive | RNAComposer/rename_folders_by_pdb.py:11 | Python's string order is transitive. |
| RenameFolders.StrLeTransitive | RNAComposer/rename_folders_by_pdb.py:11 | The non-strict string order is transitive. |
| RenameFolders.Insert | RNAComposer/rename_folders_by_pdb.py:11 | Inserting into a sorted listing keeps it sorted and adds exactly the entry. |
| RenameFolders.InsertFront | RNAComposer/rename_folders_by_pdb.py:11 | An entry no later than the head goes in front. |
| RenameFolders.InsertBehind | RNAComposer/rename_folders_by_pdb.py:11 | An entry later than the head goes into the sorted tail. |
| RenameFolders.SortByName | RNAComposer/rename_folders_by_pdb.py:11 | `sorted(...)` is sorted by name and a rearrangement of the listing. |
| TestSetTable.PlayerCount | generate_molecule_test_set_table.py:32-39 | With no GARN file the count is the en dash. Otherwise it is the stripped first line with every trailing `;` removed: a prefix of the stripped line that ends in something other than `;`, with only `;` after it. |
| TestSetTable.PlayerCounts | generate_molecule_test_set_table.py:30-39 | Every molecule has an entry, and each entry is that molecule's player count. |
| TestSetTable.PutPlayerCount | generate_molecule_test_set_table.py:31-39 | Storing the next molecule's player count keeps every molecule so far a key and every entry that molecule's count. |
| TestSetTable.Lookup | generate_molecule_test_set_table.py:56-58 | `d.get(key, '–')`: the entry, or the en dash for a missing key. `BodyAt` and `TextReadsBack` use it for both cells. |
| TestSetTable.TableLines | generate_molecule_test_set_table.py:42-70 | The table's lines. `TableShape`, `RowAt`, `NoRuleBeforeClosing` and `EmptyTable` state its layout. |
| TestSetTable.Row | generate_molecule_test_set_table.py:60-62 | One table row. `RowLayout` states its text, and `RowAt` its position. |
| TestSetTable.RowLayout | generate_molecule_test_set_table.py:61 | A row is the molecule's four cells, its nucleotide count and its player count, with ` & ` between them and ` \\` at the end. |
| TestSetTable.Header | generate_molecule_test_set_table.py:42-51 | The opening lines, the caption with the molecule count, then the column lines. `TableShape`, `CaptionCount` and `HeaderSingleLines` state its layout. |
| TestSetTable.Body | generate_molecule_test_set_table.py:54-63 | The loop adds two lines per molecule. |
| TestSetTable.BodyAt | generate_molecule_test_set_table.py:54-63 | The k-th molecule's row, with its looked-up size and player count, is at body line 2k, followed by `\hline`. |
| TestSetTable.TableShape | generate_molecule_test_set_table.py:42-70 | For n >= 1 molecules the table has 8 header lines, 2n-1 body lines and 4 closing lines. The header comes first, rows are in molecule order with `\hline` between them, and the closing lines come last. |
| TestSetTable.RowAt | generate_molecule_test_set_table.py:54-66 | The k-th row sits at line 8 + 2k, followed by `\hline` unless it is the last. |
| TestSetTable.NoRuleBeforeClosing | generate_molecule_test_set_table.py:63-67 | The line before the first closing line is the last row, not `\hline`. |
| TestSetTable.EmptyTable | generate_molecule_test_set_table.py:42-70 | With no molecules, the `pop()` removes the header's last line (the rule under the column names) and no row is written. |
| TestSetTable.CaptionCount | generate_molecule_test_set_table.py:46 | The caption line embeds the number of molecules, and that number reads back with `int()`. |
| TestSetTable.Decompose | generate_molecule_test_set_table.py:42-70 | For n >= 1, the table is the header, the body without its last line, then the closing lines. |
| TestSetTable.LinesReadBack | generate_molecule_test_set_table.py:74 | When no fixed line or row holds a line feed, splitting the joined text on line feeds gives the table's lines back. So the join puts exactly one line feed between lines and none at the end. |
| TestSetTable.LineOfTable | generate_molecule_test_set_table.py:42-74 | Under the same conditions, no line of the table holds a line feed. |
| TestSetTable.HeaderSingleLines | generate_molecule_test_set_table.py:42-51 | No header line holds a line feed, given that no fixed line does. |
| TestSetTable.BodyLineSingle | generate_molecule_test_set_table.py:54-63 | No body line holds a line feed, given that no row does. |
| TestSetTable.EmptyLineSingle | generate_molecule_test_set_table.py:66-70 | No line of the empty table holds a line feed. |
| TestSetTable.FilledLineSingle | generate_molecule_test_set_table.py:42-70 | No line of a non-empty table holds a line feed. |
| TestSetFile.StandardLayout | generate_molecule_test_set_table.py:42-70 | The script's fixed lines form 3 opening lines, 4 column lines ending in `\midrule`, and 4 closing lines starting with `\bottomrule`, none holding a line feed. |
| TestSetFile.TableText | generate_molecule_test_set_table.py:74 | The file's text: the table's lines in the script's layout, joined by line feeds. `TextReadsBack` states that it reads back as those lines. |
| TestSetFile.OpeningSingle | generate_molecule_test_set_table.py:43-45 | The opening lines hold no line feed. |
| TestSetFile.CaptionSingle | generate_molecule_test_set_table.py:46 | The caption text holds no line feed. |
| TestSetFile.ColumnsSingle | generate_molecule_test_set_table.py:47-50 | The column lines hold no line feed. |
| TestSetFile.ClosingSingle | generate_molecule_test_set_table.py:67-70 | The closing lines hold no line feed. |
| TestSetFile.TextReadsBack | generate_molecule_test_set_table.py:30-74 | The file text reads back line by line as the table, provided no row holds a line feed. The player cell looked up for every molecule is that molecule's player count. |
| Text.SkipSpaces | RNAComposer/split_all_pdbs.py:38 | This is the first non-whitespace position at or after `i`, with only whitespace before it. |
| Text.BackSpaces | generate_molecule_test_set_table.py:35 | This is the end of the text once trailing whitespace is cut. |
| Text.WordEnd | RNAComposer/split_all_pdbs.py:38 | This is the end of the whitespace-free run starting at `i`. |
| Text.TokenAt | RNAComposer/split_all_pdbs.py:38 | A whitespace-free run after leading whitespace, ending at whitespace or the end, is the first token of `split()`, and the later tokens follow it. |
| Text.Tokens | RNAComposer/split_all_pdbs.py:38 | `str.split()`: the maximal whitespace-free runs, in order. `TokenAt`, `SecondToken`, `NoTokens` and `TokensFromAreWords` state them. |
| Text.SecondToken | RNAComposer/split_all_pdbs.py:38-40 | In `word + whitespace + token + rest`, where `rest` is empty or starts with whitespace, `split()[1]` is that token. |
| Text.NoTokens | RNAComposer/split_all_pdbs.py:38 | Whitespace alone has no tokens, so `parts[1]` does not exist. |
| Text.IntToStringWord | RNAComposer/split_all_pdbs.py:38-40 | `str(i)` is one token: non-empty and free of whitespace. |
| Text.TokensFromAreWords | RNAComposer/split_all_pdbs.py:38 | Every token of `split()` is non-empty and free of whitespace. |
| Text.Strip | generate_molecule_test_set_table.py:35 | `strip()` gives a slice of the input, with only whitespace cut at either side, and its ends are not whitespace. |
| Text.TrimEnd | generate_molecule_test_set_table.py:37 | `rstrip(c)` gives a prefix, with only `c` cut off, ending in something other than `c`. |
| Text.ContainsIff | RNAComposer/split_all_pdbs.py:24 | `t in s` holds exactly when `t` occurs at some position of `s`. |
| Text.ContainsInside | RNAComposer/split_all_pdbs.py:24 | `t` is in `a + t + b`. |
| Text.DigitChar | RNAComposer/split_all_pdbs.py:45 | A digit value prints as a digit character that reads back as that value. |
| Text.NatToString | RNAComposer/split_all_pdbs.py:45 | `str(n)` is a non-empty string of digits with no sign or dot, in shortest form: it starts with `0` only for `n == 0`, and then it is just `0`. |
| Text.IntToString | RNAComposer/split_all_pdbs.py:45 | `str(i)` is non-empty, with no dot or plus sign. |
| Text.NatToStringValue | RNAComposer/split_all_pdbs.py:45 | The digits of `str(n)` have the value `n`. |
| Text.IntToStringInjective | RNAComposer/split_all_pdbs.py:45 | Distinct integers print differently. |
| Text.ParseInt | RNAComposer/split_all_pdbs.py:40 | `int()` on a token. `ParseIntIff` states when it succeeds and its value. |
| Text.ParseIntIff | RNAComposer/split_all_pdbs.py:39-42 | `int()` succeeds exactly when the text after an optional `+` or `-` is a non-empty run of decimal digits. It then gives the value of those digits, negated after `-`. |
| Text.ParseIntExamples | RNAComposer/split_all_pdbs.py:39-42 | `+5` reads as 5, `007` as 7 and `-0` as 0. The empty text, `+` and `-` are rejected. |
| Text.ParseDigitsValue | RNAComposer/split_all_pdbs.py:40 | A non-empty run of digits parses to its value. |
| Text.ParseDigitsRejects | RNAComposer/split_all_pdbs.py:39-42 | A string with a non-digit in it is not a digit run. |
| Text.ParseIntRoundTrip | RNAComposer/split_all_pdbs.py:40 | `int(str(i)) == i` for every integer. |
| Text.ParseNatural | RNAComposer/split_all_pdbs.py:40 | An unsigned number reads back. |
| Text.ParseNegative | RNAComposer/split_all_pdbs.py:40 | A minus sign and digits read back as the negative number. |
| Text.ParseIntRejects | RNAComposer/split_all_pdbs.py:39-42 | A token with a non-digit anywhere except a leading sign does not parse, so the index falls back to the previous one plus one. |
| Text.Join | generate_molecule_test_set_table.py:74 | `sep.join(parts)`. `SplitJoinRoundTrip` states that `split(sep)` gives the parts back. |
| Text.SplitOn | generate_molecule_test_set_table.py:74 | `split(sep)` gives at least one piece, and no piece holds the separator. |
| Text.SplitJoinRoundTrip | generate_molecule_test_set_table.py:74 | Splitting a joined text on the separator gives the parts back when no part holds the separator. |
| Text.IndexOf | RNAComposer/rename_folders_by_pdb.py:21 | This is the position of the first occurrence. |
| Text.IndexOfAfter | generate_molecule_test_set_table.py:74 | In `a + [c] + b` with no `c` in `a`, the first `c` is at `|a|`. |
| Text.LastIndexOf | RNAComposer/split_all_pdbs.py:24 | This is the position of the last occurrence, or -1 when there is none. |

## Left out

- File system access is not modelled: `rglob`, `glob`, `iterdir`, `is_dir`, `open`, reading lines, `writelines`, `exists` and `rename`. Files, listings and existing names are inputs. The order of a directory walk or a glob is the order of the given sequence.
- SplitSingle.RunScript: takes an existing path to be a readable file. A path that exists but cannot be opened for reading, such as a directory or a file without read permission, makes `p.open('r')` raise (`RNAComposer/7QR4/split_pdb_models.py:16`). The script then ends with exit code 1 and writes nothing. The `present ==> exitCode == 0` clause does not cover that case.
- Console output, `sys.argv`, the "no .pdb files found" early exit and the final "Done" lines are printing and argument handling.
- The batch script's per-file `except Exception` (`RNAComposer/split_all_pdbs.py:67-68`) is left out. A read failure would be an I/O error, and no model operation fails. The renamer's `except Exception` around glob and rename (`RNAComposer/rename_folders_by_pdb.py:27-28, 51-52`) is left out for the same reason.
- `samefile` is path identity through inodes and links. It is modelled as name equality. A candidate name contains `-` and an id never does, so the "already named" branch cannot fire in the model (`VisitOutcome`). A link named after an id that points at a candidate directory is not modelled.
- Text.ParseInt: models `int()` on a whitespace-free token as an optional ASCII sign followed by ASCII digits. Underscores between digits, non-ASCII digits and the limit on very long digit strings are not modelled.
- Text.IsSpace: whitespace is the ASCII set that `str.split()` and `str.strip()` recognise. Other Unicode whitespace is not modelled.
- Reading the CSV files with pandas (`generate_molecule_test_set_table.py:15-27`) is a foreign library. The molecule records arrive as text cells in file order. The size column arrives as a map from molecule name to its already formatted count.
- TestSetTable.PlayerCount: `readline()` is not modelled. The first line of the GARN file, with its terminator, is an input, and `strip()` removes the terminator as it does in the script.
- SplitAll.Run: states only the bound on the counts. Their exact values are stated by `SplitAll.RunCounts`.
- PdbSplit.NextIndex carries no contract of its own. It is the second `split()` token read by `ParseInt`, or the previous index plus one. `ModelLineIndex` and `BareModelLineIndex` state its value for the usual layouts of a MODEL line. `ParseIntRejects` covers a second token that is not an integer. What it means for the blocks is stated through `IndexRule` in `SplitCharacterised`.
- The number of writes is not stated as a count of ENDMDL lines. `SplitCharacterised` gives one block per span, and a span is terminated exactly when it ends at an ENDMDL line.

=== FILE: paths.dfy ===
/** The two pieces of `pathlib` the splitting scripts rely on: the stem of a
    file name, and the name given to the file of one model. */
module Paths {
  import opened Text

  /** `PurePath(name).stem`: the name without its last suffix. A dot counts
      as starting a suffix only when it is neither the first nor the last
      character of the name. */
  function Stem(name: string): (r: string)
    ensures |r| <= |name| && r == name[..|r|]
    ensures |r| < |name| ==> 0 < |r| < |name| - 1 && name[|r|] == '.' && '.' !in name[|r| + 1..]
    ensures |r| == |name| ==>
      !exists i :: 0 < i < |name| - 1 && name[i] == '.' && '.' !in name[i + 1..]
  {
    var i := LastIndexOf(name, '.');
    if 0 < i < |name| - 1 then name[..i]
    else
      assert forall j :: 0 < j < |name| - 1 && name[j] == '.' ==> '.' in name[j + 1..] by {
        forall j | 0 < j < |name| - 1 && name[j] == '.'
          ensures '.' in name[j + 1..]
        {
          assert i != j;
          assert name[i] == name[j + 1..][i - j - 1];
        }
      }
      name
  }

  /** The marker that identifies a file written by the splitter. */
  const ModelTag := "_model_"

  /** `f"{stem}_model_{idx}.pdb"`: the file written for the model numbered
      `idx` of a source file with the given stem. */
  function OutputName(stem: string, idx: int): string {
    stem + ModelTag + IntToString(idx) + ".pdb"
  }

  /** The stem of an output name is everything before `.pdb`. */
  lemma OutputStem(stem: string, idx: int)
    ensures Stem(OutputName(stem, idx)) == stem + ModelTag + IntToString(idx)
  {
    var name := OutputName(stem, idx);
    var base := stem + ModelTag + IntToString(idx);
    assert name == base + ".pdb";
    assert name[|base|] == '.';
    assert forall k :: |base| < k < |name| ==> name[k] != '.';
    assert LastIndexOf(name, '.') == |base|;
  }

  /** Two models of the same source file get the same output name exactly
      when their indices are equal, so a repeated index overwrites. */
  lemma OutputNameInjective(stem: string, i: int, j: int)
    ensures OutputName(stem, i) == OutputName(stem, j) <==> i == j
  {
    if OutputName(stem, i) == OutputName(stem, j) {
      var pre := stem + ModelTag;
      var a := IntToString(i);
      var b := IntToString(j);
      assert OutputName(stem, i) == pre + a + ".pdb";
      assert OutputName(stem, j) == pre + b + ".pdb";
      assert |a| == |b|;
      assert a == OutputName(stem, i)[|pre|..|pre| + |a|];
      assert b == OutputName(stem, j)[|pre|..|pre| + |b|];
      IntToStringInjective(i, j);
    }
  }
}

=== FILE: pdb_split.dfy ===
/** The MODEL/ENDMDL splitter shared by the batch and the single-file
    scripts: one forward pass over the lines of a PDB text file that cuts out
    every model block.

    `Split` is the pass itself, a fold of `Step` over the lines followed by
    `Finish` for a block still open at the end. `Spans` is an independent
    description by positions: a block starts at every MODEL line whose next
    marker line is not another MODEL line, and runs through that marker (an
    ENDMDL line) or to the end of the input. `SplitCharacterised` proves the
    two agree. */
module PdbSplit {
  import opened Wrappers
  import opened Text

  /** One model as the scripts write it out: the index that names its file,
      its lines verbatim, and whether an ENDMDL line closed it. */
  datatype Block = Block(index: int, lines: seq<string>, terminated: bool)

  /** The state of the pass: whether a model is open, the lines gathered for
      it, the current model index, and the blocks emitted so far. */
  datatype Scan = Scan(inModel: bool, acc: seq<string>, idx: int, out: seq<Block>)

  predicate IsModelLine(line: string) {
    StartsWith(line, "MODEL")
  }

  predicate IsEndLine(line: string) {
    StartsWith(line, "ENDMDL")
  }

  /** A line the pass reacts to when a model is open. */
  predicate IsMarker(line: string) {
    IsModelLine(line) || IsEndLine(line)
  }

  /** The index a MODEL line sets: its second whitespace token read as an
      integer, or one more than the previous index when that token is
      missing or not a number. */
  function NextIndex(line: string, prev: int): int {
    var tokens := Tokens(line);
    var parsed := if |tokens| >= 2 then ParseInt(tokens[1]) else None;
    parsed.GetOr(prev + 1)
  }

  /** `model_idx or 1`: the index given to a block left open at the end. */
  function TrailingIndex(idx: int): (r: int)
    ensures r != 0
    ensures idx != 0 ==> r == idx
    ensures idx == 0 ==> r == 1
  {
    if idx == 0 then 1 else idx
  }

  const Start := Scan(false, [], 0, [])

  /** What one line does to the state. */
  function Step(s: Scan, line: string): Scan {
    if IsModelLine(line) then
      Scan(true, [line], NextIndex(line, s.idx), s.out)
    else if IsEndLine(line) && s.inModel then
      Scan(false, [], s.idx, s.out + [Block(s.idx, s.acc + [line], true)])
    else if s.inModel then
      s.(acc := s.acc + [line])
    else
      s
  }

  function Fold(s: Scan, lines: seq<string>): Scan
    decreases |lines|
  {
    if |lines| == 0 then s else Fold(Step(s, lines[0]), lines[1..])
  }

  /** The blocks of a finished pass, with the open block (if any) appended
      as unterminated. */
  function Finish(s: Scan): seq<Block> {
    if s.inModel && |s.acc| > 0 then
      s.out + [Block(TrailingIndex(s.idx), s.acc, false)]
    else
      s.out
  }

  /** The blocks the scripts write, in the order they write them. */
  function Split(lines: seq<string>): seq<Block> {
    Finish(Fold(Start, lines))
  }

  /** A MODEL line laid out as the PDB format has it, `MODEL`, whitespace,
      the serial number and then nothing or whitespace (the line terminator),
      sets the index to that number, whatever it was. */
  lemma ModelLineIndex(pad: string, n: int, rest: string, prev: int)
    requires |pad| > 0 && forall k :: 0 <= k < |pad| ==> IsSpace(pad[k])
    requires |rest| == 0 || IsSpace(rest[0])
    ensures IsModelLine("MODEL" + pad + IntToString(n) + rest)
    ensures NextIndex("MODEL" + pad + IntToString(n) + rest, prev) == n
  {
    var line := "MODEL" + pad + IntToString(n) + rest;
    assert line[..5] == "MODEL";
    assert IsWord("MODEL");
    IntToStringWord(n);
    SecondToken("MODEL", pad, IntToString(n), rest);
    ParseIntRoundTrip(n);
  }

  /** A MODEL line with no second token, `MODEL` followed by whitespace
      only, moves the index on by one. */
  lemma BareModelLineIndex(rest: string, prev: int)
    requires forall k :: 0 <= k < |rest| ==> IsSpace(rest[k])
    ensures IsModelLine("MODEL" + rest)
    ensures NextIndex("MODEL" + rest, prev) == prev + 1
  {
    var s := "MODEL" + rest;
    assert s[..5] == "MODEL";
    assert forall k :: 0 <= k < |rest| ==> s[5 + k] == rest[k];
    if |rest| > 0 {
      TokenAt(s, 0, 0, 5);
      NoTokens(s, 5);
    } else {
      TokenAt(s, 0, 0, 5);
      assert TokensFrom(s, 5) == [];
    }
  }

  // -----------------------------------------------------------------------
  // Reference description by positions

  /** A block located in the input: lines `start` up to (not including)
      `end`, with its index and whether it was closed by ENDMDL. */
  datatype Span = Span(start: nat, end: nat, index: int, terminated: bool)

  /** The first position at or after `from` holding a marker line, or
      `|lines|` when there is none. */
  function NextMarker(lines: seq<string>, from: nat): (j: nat)
    requires from <= |lines|
    ensures from <= j <= |lines|
    ensures j < |lines| ==> IsMarker(lines[j])
    ensures forall q :: from <= q < j ==> !IsMarker(lines[q])
    decreases |lines| - from
  {
    if from == |lines| || IsMarker(lines[from]) then from else NextMarker(lines, from + 1)
  }

  /** The MODEL line at `q` opens a block that gets written: the next marker
      after it is an ENDMDL line, or there is none. */
  predicate Opens(lines: seq<string>, q: nat) {
    q < |lines| && IsModelLine(lines[q])
    && var j := NextMarker(lines, q + 1);
    (j == |lines| || IsEndLine(lines[j]))
  }

  /** The shape of a written block: it starts at a MODEL line and runs through
      the next marker line, which is an ENDMDL line exactly when the block is
      terminated; an unterminated block runs to the end of the input. */
  predicate SpanShape(lines: seq<string>, sp: Span) {
    Opens(lines, sp.start)
    && var j := NextMarker(lines, sp.start + 1);
    (sp.terminated <==> j < |lines|)
    && sp.end == (if j < |lines| then j + 1 else j)
  }

  predicate Fits(lines: seq<string>, sp: Span) {
    sp.start < sp.end <= |lines|
  }

  /** Spans each of the right shape, in input order and not overlapping. */
  predicate WellFormed(lines: seq<string>, sps: seq<Span>) {
    && (forall k :: 0 <= k < |sps| ==> SpanShape(lines, sps[k]))
    && (forall k :: 0 < k < |sps| ==> sps[k - 1].end <= sps[k].start)
  }

  /** Spans that lie within `lines`, at or after `from`. */
  predicate Within(lines: seq<string>, from: nat, sps: seq<Span>) {
    forall k :: 0 <= k < |sps| ==> from <= sps[k].start && Fits(lines, sps[k])
  }

  /** The spans found from `from` on, with no model open and `idx` the
      current index. */
  function Spans(lines: seq<string>, from: nat, idx: int): (r: seq<Span>)
    requires from <= |lines|
    ensures Within(lines, from, r)
    decreases |lines| - from, 1
  {
    if from == |lines| then []
    else if IsModelLine(lines[from]) then SpansFromModel(lines, from, NextIndex(lines[from], idx))
    else Spans(lines, from + 1, idx)
  }

  /** The spans found once the MODEL line at `start` has set the index to `i`. */
  function SpansFromModel(lines: seq<string>, start: nat, i: int): (r: seq<Span>)
    requires start < |lines| && IsModelLine(lines[start])
    ensures Within(lines, start, r)
    decreases |lines| - start, 0
  {
    var j := NextMarker(lines, start + 1);
    if j == |lines| then [Span(start, j, TrailingIndex(i), false)]
    else if IsModelLine(lines[j]) then Spans(lines, j, i)
    else [Span(start, j + 1, i, true)] + Spans(lines, j + 1, i)
  }

  /** The blocks the spans cut out of `lines`. */
  function Materialise(lines: seq<string>, sps: seq<Span>): (r: seq<Block>)
    requires forall k :: 0 <= k < |sps| ==> Fits(lines, sps[k])
    ensures |r| == |sps|
    decreases |sps|
  {
    if |sps| == 0 then []
    else
      var sp := sps[0];
      assert Fits(lines, sp);
      [Block(sp.index, lines[sp.start..sp.end], sp.terminated)] + Materialise(lines, sps[1..])
  }

  /** Block `k` is what span `k` cuts out: its lines, index and flag. */
  lemma {:induction false} MaterialiseAt(lines: seq<string>, sps: seq<Span>, k: nat)
    requires forall j :: 0 <= j < |sps| ==> Fits(lines, sps[j])
    requires k < |sps|
    ensures Fits(lines, sps[k])
    ensures Materialise(lines, sps)[k]
         == Block(sps[k].index, lines[sps[k].start..sps[k].end], sps[k].terminated)
    decreases k
  {
    if k > 0 {
      MaterialiseAt(lines, sps[1..], k - 1);
    }
  }

  /** The model index in force after the first `p` lines: every MODEL line
      before `p` updates it, including those of blocks never written. */
  function IndexBefore(lines: seq<string>, p: nat): int
    requires p <= |lines|
    decreases p
  {
    if p == 0 then 0
    else if IsModelLine(lines[p - 1]) then NextIndex(lines[p - 1], IndexBefore(lines, p - 1))
    else IndexBefore(lines, p - 1)
  }

  /** The index of a written block is set by its own MODEL line from the
      index in force before it; a block left open with index 0 gets 1. */
  predicate IndexRule(lines: seq<string>, sp: Span) {
    sp.start < |lines|
    && var v := NextIndex(lines[sp.start], IndexBefore(lines, sp.start));
    sp.index == (if sp.terminated then v else TrailingIndex(v))
  }

  /** The reference spans are well formed. */
  lemma {:induction false} SpansShape(lines: seq<string>, from: nat, idx: int)
    requires from <= |lines|
    ensures WellFormed(lines, Spans(lines, from, idx))
    decreases |lines| - from, 1
  {
    if from < |lines| {
      if IsModelLine(lines[from]) {
        SpansFromModelShape(lines, from, NextIndex(lines[from], idx));
      } else {
        SpansShape(lines, from + 1, idx);
      }
    }
  }

  lemma {:induction false} SpansFromModelShape(lines: seq<string>, start: nat, i: int)
    requires start < |lines| && IsModelLine(lines[start])
    ensures WellFormed(lines, SpansFromModel(lines, start, i))
    decreases |lines| - start, 0
  {
    var j := NextMarker(lines, start + 1);
    if j == |lines| {
      var sp := Span(start, j, TrailingIndex(i), false);
      assert SpansFromModel(lines, start, i) == [sp];
      FirstSpanShape(lines, start, TrailingIndex(i));
      ConsWellFormed(lines, sp, []);
      assert [sp] + [] == [sp];
    } else if IsModelLine(lines[j]) {
      assert SpansFromModel(lines, start, i) == Spans(lines, j, i);
      SpansShape(lines, j, i);
    } else {
      var sp := Span(start, j + 1, i, true);
      assert SpansFromModel(lines, start, i) == [sp] + Spans(lines, j + 1, i);
      FirstSpanShape(lines, start, i);
      SpansShape(lines, j + 1, i);
      ConsWellFormed(lines, sp, Spans(lines, j + 1, i));
    }
  }

  /** The span a MODEL line opens when the next marker is not a MODEL line. */
  lemma FirstSpanShape(lines: seq<string>, start: nat, i: int)
    requires start < |lines| && IsModelLine(lines[start])
    requires var j := NextMarker(lines, start + 1); j == |lines| || !IsModelLine(lines[j])
    ensures var j := NextMarker(lines, start + 1);
      SpanShape(lines, if j == |lines| then Span(start, j, i, false) else Span(start, j + 1, i, true))
  {
    var j := NextMarker(lines, start + 1);
    if j < |lines| {
      assert IsEndLine(lines[j]);
    }
  }

  lemma ConsWellFormed(lines: seq<string>, sp: Span, sps: seq<Span>)
    requires SpanShape(lines, sp) && WellFormed(lines, sps)
    requires Within(lines, sp.end, sps)
    ensures WellFormed(lines, [sp] + sps)
  {
    var r := [sp] + sps;
    forall k | 0 <= k < |r|
      ensures SpanShape(lines, r[k])
    {
      if k > 0 {
        assert r[k] == sps[k - 1];
      }
    }
    forall k | 0 < k < |r|
      ensures r[k - 1].end <= r[k].start
    {
      if k > 1 {
        assert r[k - 1] == sps[k - 2] && r[k] == sps[k - 1];
      } else {
        assert r[k] == sps[0];
      }
    }
  }

  // -----------------------------------------------------------------------
  // The pass agrees with the reference

  lemma MaterialiseCons(lines: seq<string>, sp: Span, sps: seq<Span>)
    requires Fits(lines, sp)
    requires forall k :: 0 <= k < |sps| ==> Fits(lines, sps[k])
    ensures Materialise(lines, [sp] + sps)
         == [Block(sp.index, lines[sp.start..sp.end], sp.terminated)] + Materialise(lines, sps)
  {
    assert ([sp] + sps)[1..] == sps;
  }

  lemma FoldAt(s: Scan, lines: seq<string>, p: nat)
    requires p < |lines|
    ensures Fold(s, lines[p..]) == Fold(Step(s, lines[p]), lines[p + 1..])
  {
    assert lines[p..][1..] == lines[p + 1..];
  }

  /** From an idle state at `from`, the rest of the pass emits exactly the
      blocks of the spans from `from`. */
  lemma {:induction false} IdleAgrees(lines: seq<string>, from: nat, idx: int, out: seq<Block>)
    requires from <= |lines|
    ensures Finish(Fold(Scan(false, [], idx, out), lines[from..]))
         == out + Materialise(lines, Spans(lines, from, idx))
    decreases |lines| - from, 0
  {
    var s := Scan(false, [], idx, out);
    if from == |lines| {
      assert lines[from..] == [];
    } else {
      FoldAt(s, lines, from);
      if IsModelLine(lines[from]) {
        assert [lines[from]] == lines[from..from + 1];
        OpenAgrees(lines, from, from + 1, NextIndex(lines[from], idx), out);
      } else {
        IdleAgrees(lines, from + 1, idx, out);
      }
    }
  }

  lemma MarkerHeads(line: string)
    ensures IsModelLine(line) ==> line[0] == 'M'
    ensures IsEndLine(line) ==> line[0] == 'E'
  {
    if IsModelLine(line) {
      assert line[..5][0] == 'M';
    }
    if IsEndLine(line) {
      assert line[..6][0] == 'E';
    }
  }

  lemma StepGathers(s: Scan, line: string)
    requires s.inModel && !IsMarker(line)
    ensures Step(s, line) == s.(acc := s.acc + [line])
  {
  }

  lemma StepCloses(s: Scan, line: string)
    requires s.inModel && IsEndLine(line)
    ensures Step(s, line) == Scan(false, [], s.idx, s.out + [Block(s.idx, s.acc + [line], true)])
  {
    MarkerHeads(line);
  }

  /** With the model opened at `start` gathered up to `p` (and no marker in
      between), the rest of the pass emits exactly the spans that follow from
      that MODEL line. */
  lemma {:induction false} OpenAgrees(lines: seq<string>, start: nat, p: nat, i: int, out: seq<Block>)
    requires start < |lines| && IsModelLine(lines[start])
    requires start < p <= NextMarker(lines, start + 1)
    ensures Finish(Fold(Scan(true, lines[start..p], i, out), lines[p..]))
         == out + Materialise(lines, SpansFromModel(lines, start, i))
    decreases |lines| - p, 3
  {
    if p < NextMarker(lines, start + 1) {
      OpenGathers(lines, start, p, i, out);
      OpenAgrees(lines, start, p + 1, i, out);
    } else {
      OpenAtMarker(lines, start, p, i, out);
    }
  }

  /** The open model has reached its next marker, or the end of the input. */
  lemma {:induction false} OpenAtMarker(lines: seq<string>, start: nat, p: nat, i: int, out: seq<Block>)
    requires start < |lines| && IsModelLine(lines[start])
    requires start < p == NextMarker(lines, start + 1)
    ensures Finish(Fold(Scan(true, lines[start..p], i, out), lines[p..]))
         == out + Materialise(lines, SpansFromModel(lines, start, i))
    decreases |lines| - p, 2
  {
    if p == |lines| {
      OpenEnds(lines, start, p, i, out);
    } else if IsModelLine(lines[p]) {
      OpenRestarts(lines, start, p, i, out);
    } else {
      OpenCloses(lines, start, p, i, out);
    }
  }

  /** A model still open at the end of the input is written unterminated,
      under `TrailingIndex`. */
  lemma OpenEnds(lines: seq<string>, start: nat, p: nat, i: int, out: seq<Block>)
    requires start < |lines| && IsModelLine(lines[start])
    requires start < p == NextMarker(lines, start + 1) == |lines|
    ensures Finish(Fold(Scan(true, lines[start..p], i, out), lines[p..]))
         == out + Materialise(lines, SpansFromModel(lines, start, i))
  {
    var sp := Span(start, p, TrailingIndex(i), false);
    assert lines[p..] == [];
    assert SpansFromModel(lines, start, i) == [sp];
    MaterialiseCons(lines, sp, []);
    assert [sp] + [] == [sp];
  }

  lemma {:induction false} OpenRestarts(lines: seq<string>, start: nat, p: nat, i: int, out: seq<Block>)
    requires start < |lines| && IsModelLine(lines[start])
    requires start < p == NextMarker(lines, start + 1) < |lines|
    requires IsModelLine(lines[p])
    ensures Finish(Fold(Scan(true, lines[start..p], i, out), lines[p..]))
         == out + Materialise(lines, SpansFromModel(lines, start, i))
    decreases |lines| - p, 1
  {
    FoldAt(Scan(true, lines[start..p], i, out), lines, p);
    FoldAt(Scan(false, [], i, out), lines, p);
    assert SpansFromModel(lines, start, i) == Spans(lines, p, i);
    IdleAgrees(lines, p, i, out);
  }

  lemma {:induction false} OpenCloses(lines: seq<string>, start: nat, p: nat, i: int, out: seq<Block>)
    requires start < |lines| && IsModelLine(lines[start])
    requires start < p == NextMarker(lines, start + 1) < |lines|
    requires !IsModelLine(lines[p])
    ensures Finish(Fold(Scan(true, lines[start..p], i, out), lines[p..]))
         == out + Materialise(lines, SpansFromModel(lines, start, i))
    decreases |lines| - p, 1
  {
    var b := Block(i, lines[start..p + 1], true);
    var rest := Spans(lines, p + 1, i);
    var m := Materialise(lines, rest);
    assert IsEndLine(lines[p]);
    calc {
      Finish(Fold(Scan(true, lines[start..p], i, out), lines[p..]));
      { OpenEndStep(lines, start, p, i, out); }
      Finish(Fold(Scan(false, [], i, out + [b]), lines[p + 1..]));
      { IdleAgrees(lines, p + 1, i, out + [b]); }
      out + [b] + m;
      { AppendAssoc(out, [b], m); }
      out + ([b] + m);
      { ClosedSpanFirst(lines, start, p, i); }
      out + Materialise(lines, SpansFromModel(lines, start, i));
    }
  }

  lemma AppendAssoc<T>(a: seq<T>, b: seq<T>, c: seq<T>)
    ensures a + b + c == a + (b + c)
  {
  }

  /** A block closed by the ENDMDL line at `p` is the first block of the
      spans from its MODEL line. */
  lemma ClosedSpanFirst(lines: seq<string>, start: nat, p: nat, i: int)
    requires start < |lines| && IsModelLine(lines[start])
    requires start < p == NextMarker(lines, start + 1) < |lines|
    requires !IsModelLine(lines[p])
    ensures Materialise(lines, SpansFromModel(lines, start, i))
         == [Block(i, lines[start..p + 1], true)] + Materialise(lines, Spans(lines, p + 1, i))
  {
    var sp := Span(start, p + 1, i, true);
    var rest := Spans(lines, p + 1, i);
    assert SpansFromModel(lines, start, i) == [sp] + rest;
    MaterialiseCons(lines, sp, rest);
  }

  lemma OpenGathers(lines: seq<string>, start: nat, p: nat, i: int, out: seq<Block>)
    requires start < p < |lines| && !IsMarker(lines[p])
    ensures Fold(Scan(true, lines[start..p], i, out), lines[p..])
         == Fold(Scan(true, lines[start..p + 1], i, out), lines[p + 1..])
  {
    var s := Scan(true, lines[start..p], i, out);
    FoldAt(s, lines, p);
    StepGathers(s, lines[p]);
    assert lines[start..p] + [lines[p]] == lines[start..p + 1];
  }

  lemma OpenEndStep(lines: seq<string>, start: nat, p: nat, i: int, out: seq<Block>)
    requires start < p < |lines| && IsEndLine(lines[p])
    ensures Fold(Scan(true, lines[start..p], i, out), lines[p..])
         == Fold(Scan(false, [], i, out + [Block(i, lines[start..p + 1], true)]), lines[p + 1..])
  {
    var s := Scan(true, lines[start..p], i, out);
    FoldAt(s, lines, p);
    StepCloses(s, lines[p]);
    assert lines[start..p] + [lines[p]] == lines[start..p + 1];
  }

  /** No MODEL line lies in `[a, b)`, so the index in force does not change. */
  lemma {:induction false} IndexSteady(lines: seq<string>, a: nat, b: nat)
    requires a <= b <= |lines|
    requires forall q :: a <= q < b ==> !IsModelLine(lines[q])
    ensures IndexBefore(lines, b) == IndexBefore(lines, a)
    decreases b
  {
    if a < b {
      IndexSteady(lines, a, b - 1);
    }
  }

  lemma {:induction false} SpansIndex(lines: seq<string>, from: nat, idx: int)
    requires from <= |lines|
    requires idx == IndexBefore(lines, from)
    ensures forall k :: 0 <= k < |Spans(lines, from, idx)| ==> IndexRule(lines, Spans(lines, from, idx)[k])
    decreases |lines| - from, 1
  {
    if from < |lines| {
      if IsModelLine(lines[from]) {
        SpansFromModelIndex(lines, from, NextIndex(lines[from], idx));
      } else {
        SpansIndex(lines, from + 1, idx);
      }
    }
  }

  lemma {:induction false} SpansFromModelIndex(lines: seq<string>, start: nat, i: int)
    requires start < |lines| && IsModelLine(lines[start])
    requires i == IndexBefore(lines, start + 1)
    ensures forall k :: 0 <= k < |SpansFromModel(lines, start, i)| ==> IndexRule(lines, SpansFromModel(lines, start, i)[k])
    decreases |lines| - start, 0
  {
    var j := NextMarker(lines, start + 1);
    if j < |lines| {
      IndexSteady(lines, start + 1, j);
      if IsModelLine(lines[j]) {
        SpansIndex(lines, j, i);
      } else {
        SpansIndex(lines, j + 1, i);
      }
    }
  }

  /** Every MODEL line that opens a block (at or after `from`) starts one of
      the spans; `k` is its position among them. */
  lemma {:induction false} SpansFind(lines: seq<string>, from: nat, idx: int, q: nat) returns (k: nat)
    requires from <= q && Opens(lines, q)
    ensures k < |Spans(lines, from, idx)| && Spans(lines, from, idx)[k].start == q
    decreases |lines| - from, 1
  {
    if IsModelLine(lines[from]) {
      k := SpansFromModelFind(lines, from, NextIndex(lines[from], idx), q);
    } else {
      k := SpansFind(lines, from + 1, idx, q);
    }
  }

  lemma {:induction false} SpansFromModelFind(lines: seq<string>, start: nat, i: int, q: nat) returns (k: nat)
    requires start < |lines| && IsModelLine(lines[start])
    requires start <= q && Opens(lines, q)
    ensures k < |SpansFromModel(lines, start, i)| && SpansFromModel(lines, start, i)[k].start == q
    decreases |lines| - start, 0
  {
    var j := NextMarker(lines, start + 1);
    if q == start {
      if j < |lines| {
        MarkerHeads(lines[j]);
      }
      k := 0;
    } else if IsModelLine(lines[j]) {
      assert SpansFromModel(lines, start, i) == Spans(lines, j, i);
      k := SpansFind(lines, j, i, q);
    } else {
      var rest := Spans(lines, j + 1, i);
      assert SpansFromModel(lines, start, i) == [Span(start, j + 1, i, true)] + rest;
      var k' := SpansFind(lines, j + 1, i, q);
      k := k' + 1;
    }
  }

  /** The pass writes exactly the blocks of the reference spans: each block is
      the slice of the input from a MODEL line that opens a block through its
      ENDMDL line (or to the end of input), in input order, and every MODEL
      line that opens a block starts one. Each index follows the index rule. */
  lemma SplitCharacterised(lines: seq<string>)
    ensures var sps := Spans(lines, 0, 0);
      && Split(lines) == Materialise(lines, sps)
      && (forall k :: 0 <= k < |sps| ==> SpanShape(lines, sps[k]) && IndexRule(lines, sps[k]))
      && (forall k :: 0 < k < |sps| ==> sps[k - 1].end <= sps[k].start)
      && (forall q :: Opens(lines, q) <==> exists k :: 0 <= k < |sps| && sps[k].start == q)
  {
    var sps := Spans(lines, 0, 0);
    assert lines[0..] == lines;
    SpansShape(lines, 0, 0);
    IdleAgrees(lines, 0, 0, []);
    SpansIndex(lines, 0, 0);
    forall q | Opens(lines, q)
      ensures exists k :: 0 <= k < |sps| && sps[k].start == q
    {
      var k := SpansFind(lines, 0, 0, q);
    }
  }

  /** Read as lines: a written block starts with its MODEL line, holds no
      other marker line, and ends with ENDMDL exactly when it is terminated;
      an unterminated block reaches the end of the input. */
  lemma SpanContents(lines: seq<string>, sp: Span)
    requires SpanShape(lines, sp)
    ensures sp.start < sp.end <= |lines|
    ensures IsModelLine(lines[sp.start])
    ensures sp.terminated ==> sp.end >= sp.start + 2 && IsEndLine(lines[sp.end - 1])
    ensures !sp.terminated ==> sp.end == |lines|
    ensures forall q :: sp.start < q < sp.end && !(sp.terminated && q == sp.end - 1) ==> !IsMarker(lines[q])
  {
  }

  // -----------------------------------------------------------------------
  // Consequences stated on the pass directly

  lemma {:induction false} FoldAppend(s: Scan, a: seq<string>, b: seq<string>)
    ensures Fold(s, a + b) == Fold(Fold(s, a), b)
    decreases |a|
  {
    if |a| > 0 {
      assert (a + b)[0] == a[0];
      assert (a + b)[1..] == a[1..] + b;
      FoldAppend(Step(s, a[0]), a[1..], b);
    } else {
      assert a + b == b;
    }
  }

  /** Lines read while no model is open, a stray ENDMDL among them, go to no
      output: a prefix without MODEL lines changes nothing. */
  lemma {:induction false} IdleLinesDropped(pre: seq<string>, rest: seq<string>)
    requires forall q :: 0 <= q < |pre| ==> !IsModelLine(pre[q])
    ensures Split(pre + rest) == Split(rest)
  {
    IdleFold(Start, pre);
    FoldAppend(Start, pre, rest);
  }

  /** The same anywhere in the input: lines without a MODEL line that arrive
      while no model is open change nothing. */
  lemma IdleLinesBetween(pre: seq<string>, mid: seq<string>, rest: seq<string>)
    requires !Fold(Start, pre).inModel
    requires forall q :: 0 <= q < |mid| ==> !IsModelLine(mid[q])
    ensures Split(pre + mid + rest) == Split(pre + rest)
  {
    IdleFold(Fold(Start, pre), mid);
    FoldAppend(Start, pre + mid, rest);
    FoldAppend(Start, pre, mid);
    FoldAppend(Start, pre, rest);
  }

  /** While no model is open, lines without a MODEL line leave the state as
      it is. */
  lemma {:induction false} IdleFold(s: Scan, mid: seq<string>)
    requires !s.inModel
    requires forall q :: 0 <= q < |mid| ==> !IsModelLine(mid[q])
    ensures Fold(s, mid) == s
    decreases |mid|
  {
    if |mid| > 0 {
      IdleFold(s, mid[1..]);
    }
  }

  lemma {:induction false} GatherFold(s: Scan, mid: seq<string>)
    requires s.inModel
    requires forall q :: 0 <= q < |mid| ==> !IsMarker(mid[q])
    ensures Fold(s, mid) == s.(acc := s.acc + mid)
    decreases |mid|
  {
    if |mid| > 0 {
      GatherFold(s.(acc := s.acc + [mid[0]]), mid[1..]);
      assert s.acc + [mid[0]] + mid[1..] == s.acc + mid;
    }
  }

  /** A MODEL line that arrives while a block is open throws the open block
      away: whatever it had gathered never reaches any output. */
  lemma OpenBlockDiscarded(pre: seq<string>, m: string, mid: seq<string>, rest: seq<string>)
    requires IsModelLine(m)
    requires forall q :: 0 <= q < |mid| ==> !IsMarker(mid[q])
    requires |rest| > 0 && IsModelLine(rest[0])
    ensures Split(pre + [m] + mid + rest) == Split(pre + [m] + rest)
  {
    var s := Step(Fold(Start, pre), m);
    FoldAppend(Start, pre + [m] + mid, rest);
    FoldAppend(Start, pre + [m], mid);
    FoldAppend(Start, pre, [m]);
    FoldAppend(Start, pre + [m], rest);
    GatherFold(s, mid);
    assert rest == [rest[0]] + rest[1..];
    FoldAppend(s, [rest[0]], rest[1..]);
    FoldAppend(s.(acc := s.acc + mid), [rest[0]], rest[1..]);
  }

  /** Some block gets written exactly when the input has a MODEL line. */
  lemma SplitNonEmptyIff(lines: seq<string>)
    ensures |Split(lines)| > 0 <==> exists q :: 0 <= q < |lines| && IsModelLine(lines[q])
  {
    SplitCharacterised(lines);
    var sps := Spans(lines, 0, 0);
    if |sps| > 0 {
      SpansShape(lines, 0, 0);
      assert SpanShape(lines, sps[0]);
    }
    if exists q :: 0 <= q < |lines| && IsModelLine(lines[q]) {
      var q :| 0 <= q < |lines| && IsModelLine(lines[q]);
      var o := SomeOpener(lines, q);
      assert Opens(lines, o);
    }
  }

  /** After any MODEL line there is one that opens a block: follow MODEL
      lines that are cut short until one is not. */
  lemma {:induction false} SomeOpener(lines: seq<string>, q: nat) returns (o: nat)
    requires q < |lines| && IsModelLine(lines[q])
    ensures q <= o && Opens(lines, o)
    decreases |lines| - q
  {
    var j := NextMarker(lines, q + 1);
    if j < |lines| && IsModelLine(lines[j]) {
      o := SomeOpener(lines, j);
    } else {
      o := q;
    }
  }

  // -----------------------------------------------------------------------
  // Files made of well-formed models

  /** A model as a well-formed file holds it: MODEL line, body without
      markers, ENDMDL line. */
  predicate ClosedModel(b: seq<string>) {
    |b| >= 2 && IsModelLine(b[0]) && IsEndLine(b[|b| - 1])
    && forall q :: 0 < q < |b| - 1 ==> !IsMarker(b[q])
  }

  function Concat(bs: seq<seq<string>>): seq<string>
    decreases |bs|
  {
    if |bs| == 0 then [] else bs[0] + Concat(bs[1..])
  }

  lemma ClosedModelFold(s: Scan, b: seq<string>)
    requires !s.inModel
    requires ClosedModel(b)
    ensures var i := NextIndex(b[0], s.idx);
      Fold(s, b) == Scan(false, [], i, s.out + [Block(i, b, true)])
  {
    var i := NextIndex(b[0], s.idx);
    var body := b[1..|b| - 1];
    assert b == [b[0]] + body + [b[|b| - 1]];
    FoldAppend(s, [b[0]] + body, [b[|b| - 1]]);
    FoldAppend(s, [b[0]], body);
    var t := Scan(true, [b[0]], i, s.out);
    GatherFold(t, body);
  }

  /** A file made of N well-formed models, one after the other, is split into
      exactly those N blocks, each terminated and verbatim. */
  lemma {:induction false} ClosedModelsSplit(s: Scan, bs: seq<seq<string>>)
    requires !s.inModel
    requires forall k :: 0 <= k < |bs| ==> ClosedModel(bs[k])
    ensures var r := Finish(Fold(s, Concat(bs)));
      |r| == |s.out| + |bs| && r[..|s.out|] == s.out
      && forall k :: 0 <= k < |bs| ==> r[|s.out| + k].lines == bs[k] && r[|s.out| + k].terminated
    decreases |bs|
  {
    if |bs| > 0 {
      var t := Fold(s, bs[0]);
      var r := Finish(Fold(s, Concat(bs)));
      assert r == Finish(Fold(t, Concat(bs[1..]))) by {
        FoldAppend(s, bs[0], Concat(bs[1..]));
      }
      assert t.out == s.out + [Block(NextIndex(bs[0][0], s.idx), bs[0], true)] && !t.inModel by {
        ClosedModelFold(s, bs[0]);
      }
      ClosedModelsSplit(t, bs[1..]);
      assert r[..|t.out|] == t.out;
      assert r[|s.out|] == t.out[|s.out|];
      forall k | 0 < k < |bs|
        ensures r[|s.out| + k].lines == bs[k] && r[|s.out| + k].terminated
      {
        assert bs[1..][k - 1] == bs[k];
        assert |s.out| + k == |t.out| + (k - 1);
      }
    }
  }

  lemma ClosedModelsCount(bs: seq<seq<string>>)
    requires forall k :: 0 <= k < |bs| ==> ClosedModel(bs[k])
    ensures var r := Split(Concat(bs));
      |r| == |bs| && forall k :: 0 <= k < |bs| ==> r[k].lines == bs[k] && r[k].terminated
  {
    var r := Split(Concat(bs));
    assert Start.out == [] && !Start.inModel;
    ClosedModelsSplit(Start, bs);
    assert |r| == |bs|;
    forall k | 0 <= k < |bs|
      ensures r[k].lines == bs[k] && r[k].terminated
    {
      assert r[|Start.out| + k] == r[k];
    }
  }
}

=== FILE: rename_folders.dfy ===
/** The folder renamer: every `rnacomposer-*` directory under the root is
    renamed after the PDB id found in the names of the files it holds, with
    a `_<n>` suffix when that name is already taken. The root listing is the
    given sequence of entries; the names present in the root are a set that
    each rename updates. */
module RenameFolders {
  import opened Wrappers
  import opened Text

  /** An entry of the root directory: its name, whether it is a directory,
      and the names of the files inside it (in listing order). */
  datatype Entry = Entry(name: string, isDir: bool, files: seq<string>)

  const CandidatePrefix := "rnacomposer-"

  /** Only directories named `rnacomposer-...` are considered. */
  predicate IsCandidate(e: Entry) {
    e.isDir && StartsWith(e.name, CandidatePrefix)
  }

  /** The glob patterns `*.pdb`, `*-log.txt` and `*.pdb-blocks.txt`, in the
      order they are tried; each is `*` followed by a literal suffix. */
  const PatternSuffixes: seq<string> := [".pdb", "-log.txt", ".pdb-blocks.txt"]

  /** The files `dir.glob("*" + suffix)` yields, in listing order. */
  function Glob(files: seq<string>, suffix: string): (r: seq<string>)
    ensures |r| <= |files|
    ensures forall k :: 0 <= k < |r| ==> r[k] in files && EndsWith(r[k], suffix)
    ensures forall k :: 0 <= k < |files| && EndsWith(files[k], suffix) ==> files[k] in r
    decreases |files|
  {
    if |files| == 0 then []
    else if EndsWith(files[0], suffix) then [files[0]] + Glob(files[1..], suffix)
    else Glob(files[1..], suffix)
  }

  /** Globbing one file keeps it exactly when it ends in the suffix. */
  lemma GlobSingle(f: string, suffix: string)
    ensures EndsWith(f, suffix) ==> Glob([f], suffix) == [f]
    ensures !EndsWith(f, suffix) ==> Glob([f], suffix) == []
  {
    assert [f][1..] == [];
  }

  /** Globbing a listing is globbing its parts in turn: together with
      `GlobSingle` this fixes the order and the number of times each match
      appears, namely listing order, once per listed occurrence. */
  lemma {:induction false} GlobConcat(a: seq<string>, b: seq<string>, suffix: string)
    ensures Glob(a + b, suffix) == Glob(a, suffix) + Glob(b, suffix)
    decreases |a|
  {
    if |a| == 0 {
      assert a + b == b;
    } else {
      assert (a + b)[0] == a[0];
      assert (a + b)[1..] == a[1..] + b;
      GlobConcat(a[1..], b, suffix);
    }
  }

  /** `name.split('.')[0]`: the file name up to its first dot. */
  function FirstDotStem(name: string): (r: string)
    ensures |r| <= |name| && r == name[..|r|]
    ensures '.' !in r
    ensures |r| < |name| ==> name[|r|] == '.'
  {
    if '.' in name then name[..IndexOf(name, '.')] else name
  }

  /** The longest prefix of `s` made of ASCII letters and digits. */
  function AlnumRun(s: string): (r: string)
    ensures |r| <= |s| && r == s[..|r|]
    ensures forall k :: 0 <= k < |r| ==> IsAlnum(r[k])
    ensures |r| < |s| ==> !IsAlnum(s[|r|])
    decreases |s|
  {
    if |s| > 0 && IsAlnum(s[0]) then [s[0]] + AlnumRun(s[1..]) else []
  }

  /** `re.match(r'^([A-Za-z0-9]{4,6})', stem)`: the greedy match of four to
      six leading letters and digits. There is an id exactly when the stem
      starts with four letters or digits; the id is then the leading run of
      letters and digits, cut at six. */
  function PdbId(stem: string): (r: Option<string>)
    ensures r.Some? <==> |stem| >= 4 && forall k :: 0 <= k < 4 ==> IsAlnum(stem[k])
    ensures r.Some? ==> 4 <= |r.value| <= 6 && |r.value| <= |stem| && r.value == stem[..|r.value|]
    ensures r.Some? ==> forall k :: 0 <= k < |r.value| ==> IsAlnum(r.value[k])
    ensures r.Some? && |r.value| < 6 && |r.value| < |stem| ==> !IsAlnum(stem[|r.value|])
  {
    var run := AlnumRun(stem);
    assert |run| < 4 && |stem| >= 4 ==> !IsAlnum(stem[|run|]);
    if |run| >= 4 then Some(if |run| > 6 then run[..6] else run) else None
  }

  /** The id a file name yields. */
  function IdOfFile(name: string): Option<string> {
    PdbId(FirstDotStem(name))
  }

  /** The ids the files yield, in order. */
  function IdsOf(fs: seq<string>): (ids: seq<Option<string>>)
    ensures |ids| == |fs|
  {
    MapSeq(IdOfFile, fs)
  }

  /** `f` applied to every element, in order. */
  function MapSeq<A, B>(f: A -> B, s: seq<A>): (r: seq<B>)
    ensures |r| == |s|
    decreases |s|
  {
    if |s| == 0 then [] else [f(s[0])] + MapSeq(f, s[1..])
  }

  lemma {:induction false} MapSeqAt<A, B>(f: A -> B, s: seq<A>, k: nat)
    requires k < |s|
    ensures MapSeq(f, s)[k] == f(s[k])
    decreases k
  {
    if k > 0 {
      MapSeqAt(f, s[1..], k - 1);
    }
  }

  lemma {:induction false} MapSeqConcat<A, B>(f: A -> B, a: seq<A>, b: seq<A>)
    ensures MapSeq(f, a + b) == MapSeq(f, a) + MapSeq(f, b)
    decreases |a|
  {
    if |a| == 0 {
      assert a + b == b;
    } else {
      assert (a + b)[1..] == a[1..] + b;
      MapSeqConcat(f, a[1..], b);
    }
  }

  /** Position `k` of the ids is the id of file `k`. */
  lemma IdsOfAt(fs: seq<string>, k: nat)
    requires k < |fs|
    ensures IdsOf(fs)[k] == IdOfFile(fs[k])
  {
    MapSeqAt(IdOfFile, fs, k);
  }

  /** The ids of two file lists in turn are the ids of their concatenation. */
  lemma IdsOfConcat(a: seq<string>, b: seq<string>)
    ensures IdsOf(a + b) == IdsOf(a) + IdsOf(b)
  {
    MapSeqConcat(IdOfFile, a, b);
  }

  /** Position `k` holds the first id of `ids`. */
  ghost predicate FirstAt<T>(ids: seq<Option<T>>, k: int) {
    0 <= k < |ids| && ids[k].Some?
    && forall j :: 0 <= j < k ==> ids[j].None?
  }

  /** `r` is what searching `ids` in order must give: nothing when there is
      no id, otherwise the first one. */
  ghost predicate IsFirst<T>(ids: seq<Option<T>>, r: Option<T>) {
    && (r.None? <==> forall k :: 0 <= k < |ids| ==> ids[k].None?)
    && (r.Some? ==> exists k :: 0 <= k < |ids| && FirstAt(ids, k) && ids[k] == r)
  }

  /** Searching two lists one after the other is searching their
      concatenation. */
  lemma FirstConcat<T>(a: seq<Option<T>>, b: seq<Option<T>>, ra: Option<T>, rb: Option<T>)
    requires IsFirst(a, ra) && IsFirst(b, rb)
    ensures IsFirst(a + b, if ra.Some? then ra else rb)
  {
    var ab := a + b;
    if ra.Some? {
      var k :| 0 <= k < |a| && FirstAt(a, k) && a[k] == ra;
      assert ab[k] == a[k];
      assert FirstAt(ab, k);
    } else if rb.Some? {
      var k :| 0 <= k < |b| && FirstAt(b, k) && b[k] == rb;
      assert ab[|a| + k] == b[k];
      forall j | 0 <= j < |a| + k
        ensures ab[j].None?
      {
        if j >= |a| {
          assert ab[j] == b[j - |a|];
        }
      }
      assert FirstAt(ab, |a| + k);
    } else {
      forall j | 0 <= j < |ab|
        ensures ab[j].None?
      {
        if j >= |a| {
          assert ab[j] == b[j - |a|];
        }
      }
    }
  }

  /** The inner loop: the first file (in order) that yields an id. */
  function SearchFiles(fs: seq<string>): (r: Option<string>)
    ensures IsFirst(IdsOf(fs), r)
    decreases |fs|
  {
    if |fs| == 0 then None
    else
      var r := SearchFiles(fs[1..]);
      SearchStep(fs, r);
      if IdOfFile(fs[0]).Some? then IdOfFile(fs[0]) else r
  }

  /** One step of the search: the head's own id, or else the tail's. */
  lemma SearchStep(fs: seq<string>, r: Option<string>)
    requires |fs| > 0 && IsFirst(IdsOf(fs[1..]), r)
    ensures IsFirst(IdsOf(fs), if IdOfFile(fs[0]).Some? then IdOfFile(fs[0]) else r)
  {
    FirstStep(IdOfFile(fs[0]), IdsOf(fs[1..]), r);
  }

  /** The first id of `[x] + rest` is `x` when it is one, otherwise the first
      id of `rest`. */
  lemma FirstStep<T>(x: Option<T>, rest: seq<Option<T>>, r: Option<T>)
    requires IsFirst(rest, r)
    ensures IsFirst([x] + rest, if x.Some? then x else r)
  {
    if x.Some? {
      assert FirstAt([x], 0);
    }
    FirstConcat([x], rest, x, r);
  }

  /** The files of all patterns, one pattern after the other. */
  function Candidates(files: seq<string>, pats: seq<string>): seq<string>
    decreases |pats|
  {
    if |pats| == 0 then [] else Glob(files, pats[0]) + Candidates(files, pats[1..])
  }

  /** The nested search of the script: patterns in order and, for each, the
      files it globs, stopping at the first file that yields an id. It finds
      the first id over all patterns' files taken one pattern after the
      other. */
  function SearchPatterns(files: seq<string>, pats: seq<string>): (r: Option<string>)
    ensures IsFirst(IdsOf(Candidates(files, pats)), r)
    decreases |pats|
  {
    if |pats| == 0 then None
    else
      var g := Glob(files, pats[0]);
      var found := SearchFiles(g);
      var rest := SearchPatterns(files, pats[1..]);
      IdsOfConcat(g, Candidates(files, pats[1..]));
      FirstConcat(IdsOf(g), IdsOf(Candidates(files, pats[1..])), found, rest);
      if found.Some? then found else rest
  }

  /** The id found for a directory holding `files`. */
  function FindId(files: seq<string>): Option<string> {
    SearchPatterns(files, PatternSuffixes)
  }

  // -----------------------------------------------------------------------
  // Choosing a free name

  /** `f"{id}_{n}"` */
  function Suffixed(id: string, n: nat): string {
    id + "_" + IntToString(n)
  }

  lemma SuffixedInjective(id: string, a: nat, b: nat)
    ensures Suffixed(id, a) == Suffixed(id, b) <==> a == b
  {
    if Suffixed(id, a) == Suffixed(id, b) {
      assert IntToString(a) == Suffixed(id, a)[|id| + 1..];
      assert IntToString(b) == Suffixed(id, b)[|id| + 1..];
      IntToStringInjective(a, b);
    }
  }

  /** The suffixed names for every suffix below `n`. */
  function SuffixedBelow(id: string, n: nat): set<string> {
    set k | 0 <= k < n :: Suffixed(id, k)
  }

  /** The `while True` loop: the smallest suffix `m >= n` whose name is not
      taken. It ends because each taken name it passes is a different
      element of the finite set `names`. */
  function FreeSuffix(id: string, names: set<string>, n: nat): (m: nat)
    ensures n <= m
    ensures Suffixed(id, m) !in names
    ensures forall k :: n <= k < m ==> Suffixed(id, k) in names
    decreases |names - SuffixedBelow(id, n)|
  {
    if Suffixed(id, n) !in names then n
    else
      assert Suffixed(id, n) !in SuffixedBelow(id, n) by {
        forall k | 0 <= k < n
          ensures Suffixed(id, k) != Suffixed(id, n)
        {
          SuffixedInjective(id, k, n);
        }
      }
      assert SuffixedBelow(id, n + 1) == SuffixedBelow(id, n) + {Suffixed(id, n)};
      assert names - SuffixedBelow(id, n + 1) == (names - SuffixedBelow(id, n)) - {Suffixed(id, n)};
      FreeSuffix(id, names, n + 1)
  }

  /** The name a directory with id `id` is renamed to: the id itself when it
      is free, otherwise `<id>_<n>` for the smallest free `n >= 2`. */
  function Target(id: string, names: set<string>): (t: string)
    ensures t !in names
    ensures id !in names ==> t == id
    ensures id in names ==> exists n :: SmallestFree(id, names, n) && t == Suffixed(id, n)
  {
    if id !in names then id
    else
      var n := FreeSuffix(id, names, 2);
      assert SmallestFree(id, names, n);
      Suffixed(id, n)
  }

  /** `n >= 2` is free and every suffix from 2 below it is taken. */
  predicate SmallestFree(id: string, names: set<string>, n: nat) {
    n >= 2 && Suffixed(id, n) !in names
    && forall k :: 2 <= k < n ==> Suffixed(id, k) in names
  }

  // -----------------------------------------------------------------------
  // Processing the root directory

  datatype Reason = NoIdFound | AlreadyNamed(id: string)
  datatype Renamed = Renamed(from: string, to: string)
  datatype Skipped = Skipped(name: string, reason: Reason)

  /** The names present in the root and the two lists the script prints. */
  datatype State = State(names: set<string>, renamed: seq<Renamed>, skipped: seq<Skipped>)

  /** One directory of the loop. Path identity (`samefile`) is taken to be
      name equality. */
  function Visit(st: State, e: Entry): State {
    if !IsCandidate(e) then st
    else
      match FindId(e.files)
      case None => st.(skipped := st.skipped + [Skipped(e.name, NoIdFound)])
      case Some(id) =>
        if id in st.names && id == e.name then
          st.(skipped := st.skipped + [Skipped(e.name, AlreadyNamed(id))])
        else
          var t := Target(id, st.names);
          State(st.names - {e.name} + {t}, st.renamed + [Renamed(e.name, t)], st.skipped)
  }

  function VisitAll(st: State, es: seq<Entry>): State
    decreases |es|
  {
    if |es| == 0 then st else VisitAll(Visit(st, es[0]), es[1..])
  }

  function NamesOf(es: seq<Entry>): set<string> {
    set k | 0 <= k < |es| :: es[k].name
  }

  /** The whole script over the root listing `entries`. */
  function RenameAll(entries: seq<Entry>): State {
    VisitAll(State(NamesOf(entries), [], []), SortByName(entries))
  }

  // -----------------------------------------------------------------------
  // What a run guarantees

  /** A found id is four to six ASCII letters and digits. */
  lemma FoundIdShape(files: seq<string>)
    ensures FindId(files).Some? ==>
      (4 <= |FindId(files).value| <= 6
       && forall k :: 0 <= k < |FindId(files).value| ==> IsAlnum(FindId(files).value[k]))
  {
    var fs := Candidates(files, PatternSuffixes);
    if FindId(files).Some? {
      var k :| 0 <= k < |fs| && FirstAt(IdsOf(fs), k) && IdsOf(fs)[k] == FindId(files);
      IdsOfAt(fs, k);
    }
  }

  lemma CandidateHasDash(name: string)
    requires StartsWith(name, CandidatePrefix)
    ensures '-' in name
  {
    assert name[11] == CandidatePrefix[11] == '-';
  }

  lemma TargetHasNoDash(id: string, names: set<string>)
    requires forall k :: 0 <= k < |id| ==> IsAlnum(id[k])
    ensures '-' !in Target(id, names)
  {
    if id in names {
      var n := FreeSuffix(id, names, 2);
      assert Target(id, names) == id + "_" + NatToString(n);
    }
  }

  /** One directory: a non-candidate changes nothing, a candidate without an
      id is skipped with "no id found", and a candidate with an id is renamed
      to `Target` of it. The "already named" branch never fires: a candidate
      name contains `-` and an id never does. */
  lemma VisitOutcome(st: State, e: Entry)
    ensures !IsCandidate(e) ==> Visit(st, e) == st
    ensures IsCandidate(e) && FindId(e.files).None? ==>
      Visit(st, e) == st.(skipped := st.skipped + [Skipped(e.name, NoIdFound)])
    ensures IsCandidate(e) && FindId(e.files).Some? ==>
      var t := Target(FindId(e.files).value, st.names);
      Visit(st, e) == State(st.names - {e.name} + {t}, st.renamed + [Renamed(e.name, t)], st.skipped)
  {
    if IsCandidate(e) && FindId(e.files).Some? {
      FoundIdShape(e.files);
      CandidateHasDash(e.name);
    }
  }

  function SourcesOf(rs: seq<Renamed>): set<string> {
    set k | 0 <= k < |rs| :: rs[k].from
  }

  function TargetsOf(rs: seq<Renamed>): set<string> {
    set k | 0 <= k < |rs| :: rs[k].to
  }

  /** What holds after any prefix of the listing, given the names `orig`
      present at the start: the root holds the original names minus the
      renamed directories plus their new names; only candidates are renamed
      or skipped, and only for lack of an id; no new name was present at the
      start, and no two directories get the same new name. */
  predicate Invariant(orig: set<string>, st: State) {
    && st.names == (orig - SourcesOf(st.renamed)) + TargetsOf(st.renamed)
    && (forall k :: 0 <= k < |st.renamed| ==>
          StartsWith(st.renamed[k].from, CandidatePrefix)
          && '-' !in st.renamed[k].to
          && st.renamed[k].to !in orig)
    && (forall a, b :: 0 <= a < b < |st.renamed| ==> st.renamed[a].to != st.renamed[b].to)
    && (forall k :: 0 <= k < |st.skipped| ==>
          StartsWith(st.skipped[k].name, CandidatePrefix) && st.skipped[k].reason == NoIdFound)
  }

  lemma VisitKeeps(orig: set<string>, st: State, e: Entry)
    requires Invariant(orig, st)
    ensures Invariant(orig, Visit(st, e))
  {
    VisitOutcome(st, e);
    if !IsCandidate(e) {
      assert Visit(st, e) == st;
    } else if FindId(e.files).None? {
      SkipKeeps(orig, st, e.name);
    } else {
      var id := FindId(e.files).value;
      FoundIdShape(e.files);
      TargetHasNoDash(id, st.names);
      RenameKeeps(orig, st, e.name, Target(id, st.names));
    }
  }

  /** Skipping a candidate for lack of an id preserves the run invariant. */
  lemma SkipKeeps(orig: set<string>, st: State, name: string)
    requires Invariant(orig, st)
    requires StartsWith(name, CandidatePrefix)
    ensures Invariant(orig, st.(skipped := st.skipped + [Skipped(name, NoIdFound)]))
  {
  }

  lemma RenameKeeps(orig: set<string>, st: State, from: string, t: string)
    requires Invariant(orig, st)
    requires StartsWith(from, CandidatePrefix) && '-' !in t && t !in st.names
    ensures Invariant(orig, State(st.names - {from} + {t}, st.renamed + [Renamed(from, t)], st.skipped))
  {
    var rs := st.renamed + [Renamed(from, t)];
    CandidateHasDash(from);
    assert t !in SourcesOf(st.renamed) by {
      forall k | 0 <= k < |st.renamed|
        ensures st.renamed[k].from != t
      {
        CandidateHasDash(st.renamed[k].from);
      }
    }
    assert from !in TargetsOf(st.renamed);
    RenamedAppend(st.renamed, Renamed(from, t));
  }

  lemma RenamedAppend(rs: seq<Renamed>, r: Renamed)
    ensures SourcesOf(rs + [r]) == SourcesOf(rs) + {r.from}
    ensures TargetsOf(rs + [r]) == TargetsOf(rs) + {r.to}
  {
    var rs' := rs + [r];
    forall x | x in SourcesOf(rs')
      ensures x in SourcesOf(rs) + {r.from}
    {
      var k :| 0 <= k < |rs'| && rs'[k].from == x;
      if k < |rs| {
        assert rs[k] == rs'[k];
      }
    }
    forall x | x in SourcesOf(rs) + {r.from}
      ensures x in SourcesOf(rs')
    {
      if x == r.from {
        assert rs'[|rs|].from == x;
      } else {
        var k :| 0 <= k < |rs| && rs[k].from == x;
        assert rs'[k].from == x;
      }
    }
    forall x | x in TargetsOf(rs')
      ensures x in TargetsOf(rs) + {r.to}
    {
      var k :| 0 <= k < |rs'| && rs'[k].to == x;
      if k < |rs| {
        assert rs[k] == rs'[k];
      }
    }
    forall x | x in TargetsOf(rs) + {r.to}
      ensures x in TargetsOf(rs')
    {
      if x == r.to {
        assert rs'[|rs|].to == x;
      } else {
        var k :| 0 <= k < |rs| && rs[k].to == x;
        assert rs'[k].to == x;
      }
    }
  }

  /** The sources of the renames are in name order when the listing is. */
  predicate RenamedInOrder(rs: seq<Renamed>) {
    forall a, b :: 0 <= a < b < |rs| ==> StrLe(rs[a].from, rs[b].from)
  }

  /** Every source renamed so far sorts no later than every name still to
      be visited. */
  predicate RenamedBefore(rs: seq<Renamed>, es: seq<Entry>) {
    forall k, j :: 0 <= k < |rs| && 0 <= j < |es| ==> StrLe(rs[k].from, es[j].name)
  }

  lemma {:induction false} VisitAllKeeps(orig: set<string>, st: State, es: seq<Entry>)
    requires Invariant(orig, st)
    requires SortedByName(es) && RenamedInOrder(st.renamed) && RenamedBefore(st.renamed, es)
    ensures Invariant(orig, VisitAll(st, es))
    ensures RenamedInOrder(VisitAll(st, es).renamed)
    decreases |es|
  {
    if |es| > 0 {
      VisitKeeps(orig, st, es[0]);
      VisitGrows(st, es[0]);
      OrderStep(st.renamed, Visit(st, es[0]).renamed, es);
      VisitAllKeeps(orig, Visit(st, es[0]), es[1..]);
    }
  }

  /** `rs` is `rs0`, or `rs0` with one more rename, from `from`. */
  predicate GrowsBy(rs0: seq<Renamed>, rs: seq<Renamed>, from: string) {
    rs == rs0 || (|rs| == |rs0| + 1 && rs[..|rs0|] == rs0 && rs[|rs0|].from == from)
  }

  lemma VisitGrows(st: State, e: Entry)
    ensures GrowsBy(st.renamed, Visit(st, e).renamed, e.name)
  {
    VisitOutcome(st, e);
  }

  /** Visiting the first entry of a sorted listing keeps the renames in
      order and before the rest of the listing. */
  lemma OrderStep(rs0: seq<Renamed>, rs: seq<Renamed>, es: seq<Entry>)
    requires |es| > 0 && SortedByName(es)
    requires RenamedInOrder(rs0) && RenamedBefore(rs0, es)
    requires GrowsBy(rs0, rs, es[0].name)
    ensures SortedByName(es[1..])
    ensures RenamedInOrder(rs)
    ensures RenamedBefore(rs, es[1..])
  {
    forall k, j | 0 <= k < |rs| && 0 <= j < |es[1..]|
      ensures StrLe(rs[k].from, es[1..][j].name)
    {
      if k < |rs0| {
        assert rs[k] == rs0[k];
        assert StrLe(rs0[k].from, es[j + 1].name);
      } else {
        assert rs[k].from == es[0].name;
      }
    }
    forall a, b | 0 <= a < b < |rs|
      ensures StrLe(rs[a].from, rs[b].from)
    {
      if b < |rs0| {
        assert rs[a] == rs0[a] && rs[b] == rs0[b];
      } else {
        assert rs[a] == rs0[a];
      }
    }
  }

  /** The run as a whole: directories are handled in name order, every new
      name was free when it was chosen and stays distinct from every other
      name, and the root ends up holding the original names with each
      renamed directory's name replaced by its new one. */
  lemma RenameAllFacts(entries: seq<Entry>)
    ensures var st := RenameAll(entries);
      Invariant(NamesOf(entries), st) && RenamedInOrder(st.renamed)
  {
    var orig := NamesOf(entries);
    var st := State(orig, [], []);
    assert SourcesOf([]) == {} && TargetsOf([]) == {};
    VisitAllKeeps(orig, st, SortByName(entries));
  }

  /** The root ends up holding the original names, with each renamed
      directory's name replaced by its new one. */
  lemma RenameAllNames(entries: seq<Entry>)
    ensures var st := RenameAll(entries);
      st.names == (NamesOf(entries) - SourcesOf(st.renamed)) + TargetsOf(st.renamed)
  {
    RenameAllFacts(entries);
  }

  /** No new name was present in the root at the start. */
  lemma RenameAllFresh(entries: seq<Entry>)
    ensures var st := RenameAll(entries);
      forall k :: 0 <= k < |st.renamed| ==> st.renamed[k].to !in NamesOf(entries)
  {
    RenameAllFacts(entries);
  }

  /** No two directories get the same new name. */
  lemma RenameAllDistinct(entries: seq<Entry>)
    ensures var st := RenameAll(entries);
      forall a, b :: 0 <= a < b < |st.renamed| ==> st.renamed[a].to != st.renamed[b].to
  {
    RenameAllFacts(entries);
  }

  /** Only `rnacomposer-` directories are renamed or skipped, and a skip is
      always for lack of an id. */
  lemma RenameAllCandidates(entries: seq<Entry>)
    ensures var st := RenameAll(entries);
      && (forall k :: 0 <= k < |st.renamed| ==> StartsWith(st.renamed[k].from, CandidatePrefix))
      && (forall k :: 0 <= k < |st.skipped| ==>
            StartsWith(st.skipped[k].name, CandidatePrefix) && st.skipped[k].reason == NoIdFound)
  {
    RenameAllFacts(entries);
  }

  /** Directories are renamed in name order. */
  lemma RenameAllOrder(entries: seq<Entry>)
    ensures RenamedInOrder(RenameAll(entries).renamed)
  {
    RenameAllFacts(entries);
  }

  // -----------------------------------------------------------------------
  // Every candidate is handled

  /** `t` is named after `id`: the id itself, or `<id>_<n>` for some `n >= 2`. */
  ghost predicate NamedAfter(t: string, id: string) {
    t == id || exists n: nat :: n >= 2 && t == Suffixed(id, n)
  }

  /** `r` is the rename that visiting `e` records: `e` is a candidate with an
      id, `r` starts from its name and ends at a name after its id. */
  ghost predicate Produces(e: Entry, r: Renamed) {
    IsCandidate(e) && FindId(e.files).Some? && r.from == e.name
    && NamedAfter(r.to, FindId(e.files).value)
  }

  /** `sk` is the skip that visiting `e` records: `e` is a candidate without
      an id. */
  ghost predicate SkipsFor(e: Entry, sk: Skipped) {
    IsCandidate(e) && FindId(e.files).None? && sk == Skipped(e.name, NoIdFound)
  }

  /** The target of a rename is named after the id. */
  lemma TargetNamedAfter(id: string, names: set<string>)
    ensures NamedAfter(Target(id, names), id)
  {
    if id in names {
      var n := FreeSuffix(id, names, 2);
      assert Target(id, names) == Suffixed(id, n);
    }
  }

  /** Visiting more directories only appends to the two lists. */
  lemma {:induction false} VisitAllPrefix(st: State, es: seq<Entry>)
    ensures st.renamed <= VisitAll(st, es).renamed
    ensures st.skipped <= VisitAll(st, es).skipped
    decreases |es|
  {
    if |es| > 0 {
      var s1 := Visit(st, es[0]);
      VisitOutcome(st, es[0]);
      VisitAllPrefix(s1, es[1..]);
      assert st.renamed <= s1.renamed;
      assert st.skipped <= s1.skipped;
    }
  }

  /** Visiting `e` records at most one rename, and it is produced by `e`. */
  lemma VisitRenames(st: State, e: Entry)
    ensures var s1 := Visit(st, e);
      s1.renamed == st.renamed
      || (|s1.renamed| == |st.renamed| + 1 && Produces(e, s1.renamed[|st.renamed|]))
  {
    VisitOutcome(st, e);
    if IsCandidate(e) && FindId(e.files).Some? {
      TargetNamedAfter(FindId(e.files).value, st.names);
    }
  }

  /** Visiting `e` records at most one skip, and it is for `e`. */
  lemma VisitSkips(st: State, e: Entry)
    ensures var s1 := Visit(st, e);
      s1.skipped == st.skipped
      || (|s1.skipped| == |st.skipped| + 1 && SkipsFor(e, s1.skipped[|st.skipped|]))
  {
    VisitOutcome(st, e);
  }

  /** Some directory of `es` accounts for `x`, in the sense of `P`. */
  ghost predicate AccountedFor<X>(P: (Entry, X) -> bool, es: seq<Entry>, x: X) {
    exists e :: e in es && P(e, x)
  }

  /** One step of an induction over the listing, over the lists alone:
      `xs1` adds to `xs0` at most one item that `P` ties to `es[0]`, and `xs`
      extends `xs1` with items that `P` ties to the rest of `es`. */
  lemma GrowStep<X>(P: (Entry, X) -> bool, xs0: seq<X>, xs1: seq<X>, xs: seq<X>, es: seq<Entry>)
    requires |es| > 0
    requires xs1 == xs0 || (|xs1| == |xs0| + 1 && P(es[0], xs1[|xs0|]))
    requires xs1 <= xs
    requires forall k :: |xs1| <= k < |xs| ==> AccountedFor(P, es[1..], xs[k])
    ensures forall k :: |xs0| <= k < |xs| ==> AccountedFor(P, es, xs[k])
  {
    forall k | |xs0| <= k < |xs|
      ensures AccountedFor(P, es, xs[k])
    {
      if k < |xs1| {
        assert xs[k] == xs1[k];
        assert es[0] in es && P(es[0], xs[k]);
      } else {
        assert AccountedFor(P, es[1..], xs[k]);
        var e :| e in es[1..] && P(e, xs[k]);
        assert e in es;
      }
    }
  }

  /** Every rename recorded while visiting `es` is produced by one of them. */
  lemma {:induction false} VisitAllSources(st: State, es: seq<Entry>)
    ensures var rs := VisitAll(st, es).renamed;
      forall k :: |st.renamed| <= k < |rs| ==> AccountedFor(Produces, es, rs[k])
    decreases |es|
  {
    if |es| > 0 {
      var s1 := Visit(st, es[0]);
      assert VisitAll(st, es) == VisitAll(s1, es[1..]);
      VisitRenames(st, es[0]);
      VisitAllSources(s1, es[1..]);
      VisitAllPrefix(s1, es[1..]);
      GrowStep(Produces, st.renamed, s1.renamed, VisitAll(s1, es[1..]).renamed, es);
    }
  }

  /** Every skip recorded while visiting `es` is for one of them. */
  lemma {:induction false} VisitAllSkips(st: State, es: seq<Entry>)
    ensures var sks := VisitAll(st, es).skipped;
      forall k :: |st.skipped| <= k < |sks| ==> AccountedFor(SkipsFor, es, sks[k])
    decreases |es|
  {
    if |es| > 0 {
      var s1 := Visit(st, es[0]);
      assert VisitAll(st, es) == VisitAll(s1, es[1..]);
      VisitSkips(st, es[0]);
      VisitAllSkips(s1, es[1..]);
      VisitAllPrefix(s1, es[1..]);
      GrowStep(SkipsFor, st.skipped, s1.skipped, VisitAll(s1, es[1..]).skipped, es);
    }
  }

  /** Every candidate visited is renamed when it has an id and skipped when
      it has none. */
  lemma {:induction false} VisitAllCovers(st: State, es: seq<Entry>, e: Entry)
    requires e in es && IsCandidate(e)
    ensures FindId(e.files).Some? ==>
      exists k :: 0 <= k < |VisitAll(st, es).renamed| && VisitAll(st, es).renamed[k].from == e.name
    ensures FindId(e.files).None? ==> Skipped(e.name, NoIdFound) in VisitAll(st, es).skipped
    decreases |es|
  {
    var s1 := Visit(st, es[0]);
    var r := VisitAll(st, es);
    assert r == VisitAll(s1, es[1..]);
    if e == es[0] {
      VisitOutcome(st, e);
      VisitAllPrefix(s1, es[1..]);
      if FindId(e.files).Some? {
        assert r.renamed[|st.renamed|] == s1.renamed[|st.renamed|];
      } else {
        assert r.skipped[|st.skipped|] == s1.skipped[|st.skipped|];
      }
    } else {
      assert e in es[1..];
      VisitAllCovers(s1, es[1..], e);
    }
  }

  /** The directory names of the listing are distinct, as in any directory. */
  predicate DistinctNames(es: seq<Entry>) {
    forall a, b :: 0 <= a < b < |es| ==> es[a].name != es[b].name
  }

  lemma SameName(es: seq<Entry>, e: Entry, e': Entry)
    requires DistinctNames(es) && e in es && e' in es && e.name == e'.name
    ensures e == e'
  {
    var a :| 0 <= a < |es| && es[a] == e;
    var b :| 0 <= b < |es| && es[b] == e';
    assert a == b by {
      if a < b {} else if b < a {}
    }
  }

  /** Every candidate of the listing with an id is renamed, and every one
      without is skipped. */
  lemma RenameAllCovers(entries: seq<Entry>, e: Entry)
    requires e in entries && IsCandidate(e)
    ensures FindId(e.files).Some? ==>
      exists k :: 0 <= k < |RenameAll(entries).renamed| && RenameAll(entries).renamed[k].from == e.name
    ensures FindId(e.files).None? ==> Skipped(e.name, NoIdFound) in RenameAll(entries).skipped
  {
    var es := SortByName(entries);
    var st0 := State(NamesOf(entries), [], []);
    assert RenameAll(entries) == VisitAll(st0, es);
    assert e in multiset(es);
    VisitAllCovers(st0, es, e);
  }

  /** Every rename of a candidate ends at its id, or at `<id>_<n>` with
      `n >= 2` when the id was taken. */
  lemma RenameAllTargets(entries: seq<Entry>, e: Entry, k: nat)
    requires DistinctNames(entries) && e in entries
    requires k < |RenameAll(entries).renamed| && RenameAll(entries).renamed[k].from == e.name
    ensures IsCandidate(e) && FindId(e.files).Some?
    ensures NamedAfter(RenameAll(entries).renamed[k].to, FindId(e.files).value)
  {
    var es := SortByName(entries);
    var st0 := State(NamesOf(entries), [], []);
    var st := RenameAll(entries);
    assert st == VisitAll(st0, es);
    VisitAllSources(st0, es);
    assert AccountedFor(Produces, es, st.renamed[k]);
    var e' :| e' in es && Produces(e', st.renamed[k]);
    assert e' in multiset(entries);
    SameName(entries, e, e');
  }

  /** A skip for a directory's name means it is a candidate without an id. */
  lemma RenameAllSkipped(entries: seq<Entry>, e: Entry)
    requires DistinctNames(entries) && e in entries
    requires Skipped(e.name, NoIdFound) in RenameAll(entries).skipped
    ensures IsCandidate(e) && FindId(e.files).None?
  {
    var es := SortByName(entries);
    var st0 := State(NamesOf(entries), [], []);
    var st := RenameAll(entries);
    assert st == VisitAll(st0, es);
    VisitAllSkips(st0, es);
    var k :| 0 <= k < |st.skipped| && st.skipped[k] == Skipped(e.name, NoIdFound);
    assert st.skipped[k] == VisitAll(st0, es).skipped[k];
    assert AccountedFor(SkipsFor, es, st.skipped[k]);
    var e' :| e' in es && SkipsFor(e', st.skipped[k]);
    assert e' in multiset(entries);
    SameName(entries, e, e');
  }

  /** A candidate of the listing is renamed exactly when an id is found in
      it, and skipped exactly when none is. */
  lemma RenameAllComplete(entries: seq<Entry>, e: Entry)
    requires DistinctNames(entries) && e in entries && IsCandidate(e)
    ensures var st := RenameAll(entries);
      (exists k :: 0 <= k < |st.renamed| && st.renamed[k].from == e.name) <==> FindId(e.files).Some?
    ensures Skipped(e.name, NoIdFound) in RenameAll(entries).skipped <==> FindId(e.files).None?
  {
    var st := RenameAll(entries);
    RenameAllCovers(entries, e);
    if k :| 0 <= k < |st.renamed| && st.renamed[k].from == e.name {
      RenameAllTargets(entries, e, k);
    }
    if Skipped(e.name, NoIdFound) in st.skipped {
      RenameAllSkipped(entries, e);
    }
  }

  // -----------------------------------------------------------------------
  // Sorting the listing

  /** Python's string order: code point by code point, a proper prefix first. */
  predicate StrLt(a: string, b: string)
    decreases |a|
  {
    |b| > 0 && (|a| == 0 || a[0] < b[0] || (a[0] == b[0] && StrLt(a[1..], b[1..])))
  }

  predicate StrLe(a: string, b: string) {
    a == b || StrLt(a, b)
  }

  lemma {:induction false} StrLtTotal(a: string, b: string)
    ensures StrLt(a, b) || a == b || StrLt(b, a)
    decreases |a|
  {
    if |a| > 0 && |b| > 0 && a[0] == b[0] {
      StrLtTotal(a[1..], b[1..]);
      if a[1..] == b[1..] {
        assert a == [a[0]] + a[1..] && b == [b[0]] + b[1..];
      }
    }
  }

  lemma {:induction false} StrLtTransitive(a: string, b: string, c: string)
    requires StrLt(a, b) && StrLt(b, c)
    ensures StrLt(a, c)
    decreases |a|
  {
    if |a| > 0 && a[0] == b[0] && b[0] == c[0] {
      StrLtTransitive(a[1..], b[1..], c[1..]);
    }
  }

  lemma StrLeTransitive(a: string, b: string, c: string)
    requires StrLe(a, b) && StrLe(b, c)
    ensures StrLe(a, c)
  {
    if StrLt(a, b) && StrLt(b, c) {
      StrLtTransitive(a, b, c);
    }
  }

  predicate SortedByName(es: seq<Entry>) {
    forall i, j :: 0 <= i < j < |es| ==> StrLe(es[i].name, es[j].name)
  }

  function Insert(e: Entry, s: seq<Entry>): (r: seq<Entry>)
    requires SortedByName(s)
    ensures SortedByName(r)
    ensures multiset(r) == multiset(s) + multiset{e}
    decreases |s|
  {
    if |s| == 0 then [e]
    else if StrLe(e.name, s[0].name) then
      InsertFront(e, s);
      [e] + s
    else
      var rest := Insert(e, s[1..]);
      InsertBehind(e, s, rest);
      [s[0]] + rest
  }

  /** An entry no later than the head goes in front of a sorted list. */
  lemma InsertFront(e: Entry, s: seq<Entry>)
    requires SortedByName(s) && |s| > 0 && StrLe(e.name, s[0].name)
    ensures SortedByName([e] + s)
  {
    forall j | 0 < j < |s|
      ensures StrLe(e.name, s[j].name)
    {
      StrLeTransitive(e.name, s[0].name, s[j].name);
    }
  }

  /** An entry later than the head goes into the tail. */
  lemma InsertBehind(e: Entry, s: seq<Entry>, rest: seq<Entry>)
    requires SortedByName(s) && |s| > 0 && !StrLe(e.name, s[0].name)
    requires SortedByName(rest) && multiset(rest) == multiset(s[1..]) + multiset{e}
    ensures SortedByName([s[0]] + rest)
    ensures multiset([s[0]] + rest) == multiset(s) + multiset{e}
  {
    StrLtTotal(e.name, s[0].name);
    assert s == [s[0]] + s[1..];
    forall x | x in rest
      ensures StrLe(s[0].name, x.name)
    {
      assert x in multiset(rest);
      if x != e {
        assert x in multiset(s[1..]);
        assert x in s[1..];
      }
    }
    var r := [s[0]] + rest;
    forall i, j | 0 <= i < j < |r|
      ensures StrLe(r[i].name, r[j].name)
    {
      if i > 0 {
        assert r[i] == rest[i-1] && r[j] == rest[j-1];
      } else {
        assert r[j] in rest;
      }
    }
  }

  /** `sorted(...)`: the listing in name order, as a rearrangement of it. */
  function SortByName(es: seq<Entry>): (r: seq<Entry>)
    ensures SortedByName(r)
    ensures multiset(r) == multiset(es)
    decreases |es|
  {
    if |es| == 0 then []
    else
      assert es == [es[0]] + es[1..];
      Insert(es[0], SortByName(es[1..]))
  }
}

=== FILE: split_all.dfy ===
/** The batch script: every `.pdb` file found under a root directory is split
    into one file per model, next to the source, except files whose stem marks
    them as output of an earlier run. The directory walk is the given
    sequence of files; what a run leaves on disk is `Apply` of its writes. */
module SplitAll {
  import opened Text
  import opened Paths
  import opened PdbSplit

  /** A source file as the walk finds it: its directory, its name and its
      lines (each with its line terminator, as reading the file yields them). */
  datatype PdbFile = PdbFile(dir: string, name: string, lines: seq<string>)

  /** One output file written: where, under which name, and its contents. */
  datatype Write = Write(dir: string, name: string, lines: seq<string>, terminated: bool)

  /** The totals the script prints at the end of a run. */
  datatype Summary = Summary(writes: seq<Write>, found: nat, processed: nat, skipped: nat)

  /** A file the batch leaves alone: a `.pdb` whose stem contains `_model_`. */
  predicate AlreadySplit(name: string) {
    EndsWith(name, ".pdb") && Contains(Stem(name), ModelTag)
  }

  /** The files written for the blocks of one source, in order. */
  function WritesOf(dir: string, stem: string, blocks: seq<Block>): (ws: seq<Write>)
    ensures |ws| == |blocks|
    ensures forall k :: 0 <= k < |ws| ==>
      ws[k] == Write(dir, OutputName(stem, blocks[k].index), blocks[k].lines, blocks[k].terminated)
    decreases |blocks|
  {
    if |blocks| == 0 then []
    else
      var b := blocks[0];
      [Write(dir, OutputName(stem, b.index), b.lines, b.terminated)] + WritesOf(dir, stem, blocks[1..])
  }

  /** What the batch writes for one file. */
  function FileWrites(f: PdbFile): seq<Write> {
    if AlreadySplit(f.name) then [] else WritesOf(f.dir, Stem(f.name), Split(f.lines))
  }

  /** The batch over the files in the order the walk yields them. */
  function Run(files: seq<PdbFile>): (r: Summary)
    ensures r.found == |files|
    ensures r.processed + r.skipped <= r.found
    decreases |files|
  {
    if |files| == 0 then Summary([], 0, 0, 0)
    else
      var f := files[0];
      var rest := Run(files[1..]);
      var ws := FileWrites(f);
      Summary(ws + rest.writes, rest.found + 1,
              rest.processed + (if !AlreadySplit(f.name) && |ws| > 0 then 1 else 0),
              rest.skipped + (if AlreadySplit(f.name) then 1 else 0))
  }

  /** The source has at least one MODEL line. */
  predicate HasModel(lines: seq<string>) {
    exists q :: 0 <= q < |lines| && IsModelLine(lines[q])
  }

  /** A file counts as processed when something was written for it, which is
      exactly when it is not already split and has a MODEL line. */
  lemma FileWritesIff(f: PdbFile)
    ensures |FileWrites(f)| > 0 <==> !AlreadySplit(f.name) && HasModel(f.lines)
  {
    SplitNonEmptyIff(f.lines);
  }

  /** Number of files the predicate holds for. */
  function CountProcessed(files: seq<PdbFile>): nat
    decreases |files|
  {
    if |files| == 0 then 0
    else CountProcessed(files[1..]) + (if !AlreadySplit(files[0].name) && HasModel(files[0].lines) then 1 else 0)
  }

  function CountSkipped(files: seq<PdbFile>): nat
    decreases |files|
  {
    if |files| == 0 then 0
    else CountSkipped(files[1..]) + (if AlreadySplit(files[0].name) then 1 else 0)
  }

  /** The counts the batch reports: processed files are those with a MODEL
      line that are not already split, skipped files are the already split
      ones, and the writes are those of every file, in walk order. */
  lemma {:induction false} RunCounts(files: seq<PdbFile>)
    ensures Run(files).processed == CountProcessed(files)
    ensures Run(files).skipped == CountSkipped(files)
    ensures |Run(files).writes| == TotalWrites(files)
    decreases |files|
  {
    if |files| > 0 {
      FileWritesIff(files[0]);
      RunCounts(files[1..]);
    }
  }

  function TotalWrites(files: seq<PdbFile>): nat
    decreases |files|
  {
    if |files| == 0 then 0 else |FileWrites(files[0])| + TotalWrites(files[1..])
  }

  /** Walking two lists of files in turn writes what each walk writes, in
      turn. */
  lemma {:induction false} RunAppend(a: seq<PdbFile>, b: seq<PdbFile>)
    ensures Run(a + b).writes == Run(a).writes + Run(b).writes
    decreases |a|
  {
    if |a| == 0 {
      assert a + b == b;
    } else {
      assert (a + b)[1..] == a[1..] + b;
      RunAppend(a[1..], b);
    }
  }

  /** The outputs of `f` over `xs`, one after the other. */
  function FlatMap<A, B>(f: A -> seq<B>, xs: seq<A>): seq<B>
    decreases |xs|
  {
    if |xs| == 0 then [] else f(xs[0]) + FlatMap(f, xs[1..])
  }

  /** The total length of the outputs of `f` over `xs`. */
  function SumLen<A, B>(f: A -> seq<B>, xs: seq<A>): nat
    decreases |xs|
  {
    if |xs| == 0 then 0 else |f(xs[0])| + SumLen(f, xs[1..])
  }

  /** The output for `xs[k]` sits in the flattened outputs right after those
      of the elements before it. */
  lemma {:induction false} FlatMapBlock<A, B>(f: A -> seq<B>, xs: seq<A>, k: nat)
    requires k < |xs|
    ensures var o := SumLen(f, xs[..k]);
      o + |f(xs[k])| <= |FlatMap(f, xs)| && FlatMap(f, xs)[o..o + |f(xs[k])|] == f(xs[k])
    decreases k
  {
    var head, rest := f(xs[0]), FlatMap(f, xs[1..]);
    assert FlatMap(f, xs) == head + rest;
    if k == 0 {
      assert xs[..0] == [];
    } else {
      FlatMapBlock(f, xs[1..], k - 1);
      assert xs[..k][1..] == xs[1..][..k - 1];
      assert xs[1..][k - 1] == xs[k];
      var o := SumLen(f, xs[1..][..k - 1]);
      assert (head + rest)[|head| + o..|head| + o + |f(xs[k])|] == rest[o..o + |f(xs[k])|];
    }
  }

  /** The batch's writes are the files' writes flattened in walk order, and
      their total is the sum of the files' counts. */
  lemma {:induction false} RunIsFlatMap(files: seq<PdbFile>)
    ensures Run(files).writes == FlatMap(FileWrites, files)
    ensures TotalWrites(files) == SumLen(FileWrites, files)
    decreases |files|
  {
    if |files| > 0 {
      RunIsFlatMap(files[1..]);
    }
  }

  /** The writes for file `k` appear in the run as one contiguous block,
      after the writes of every file the walk visited before it. */
  lemma RunWritesBlock(files: seq<PdbFile>, k: nat)
    requires k < |files|
    ensures var ws := Run(files).writes;
      var o := TotalWrites(files[..k]);
      o + |FileWrites(files[k])| <= |ws|
      && ws[o..o + |FileWrites(files[k])|] == FileWrites(files[k])
  {
    RunIsFlatMap(files);
    RunIsFlatMap(files[..k]);
    FlatMapBlock(FileWrites, files, k);
  }

  /** Running the batch again over its own output files writes nothing: every
      output name marks its file as already split. */
  lemma OutputsAreSkipped(dir: string, stem: string, idx: int, lines: seq<string>)
    ensures AlreadySplit(OutputName(stem, idx))
    ensures FileWrites(PdbFile(dir, OutputName(stem, idx), lines)) == []
  {
    OutputStem(stem, idx);
    ContainsInside(stem, ModelTag, IntToString(idx));
  }

  // -----------------------------------------------------------------------
  // The files a run leaves behind

  /** A file on disk is identified by directory and name. */
  datatype FileKey = FileKey(dir: string, name: string)

  function KeyOf(w: Write): FileKey {
    FileKey(w.dir, w.name)
  }

  /** Writing the files in order, each fully replacing what was there. */
  function Apply(disk: map<FileKey, seq<string>>, ws: seq<Write>): map<FileKey, seq<string>>
    decreases |ws|
  {
    if |ws| == 0 then disk else Apply(disk[KeyOf(ws[0]) := ws[0].lines], ws[1..])
  }

  /** The last write to a file decides its contents. */
  lemma {:induction false} LastWriteWins(disk: map<FileKey, seq<string>>, ws: seq<Write>, k: nat)
    requires k < |ws|
    requires forall j :: k < j < |ws| ==> KeyOf(ws[j]) != KeyOf(ws[k])
    ensures KeyOf(ws[k]) in Apply(disk, ws)
    ensures Apply(disk, ws)[KeyOf(ws[k])] == ws[k].lines
    decreases |ws|
  {
    if k == 0 {
      Untouched(disk[KeyOf(ws[0]) := ws[0].lines], ws[1..], KeyOf(ws[0]));
    } else {
      LastWriteWins(disk[KeyOf(ws[0]) := ws[0].lines], ws[1..], k - 1);
    }
  }

  /** A file no write names keeps whatever it held before. */
  lemma {:induction false} Untouched(disk: map<FileKey, seq<string>>, ws: seq<Write>, key: FileKey)
    requires forall j :: 0 <= j < |ws| ==> KeyOf(ws[j]) != key
    ensures key in Apply(disk, ws) <==> key in disk
    ensures key in disk ==> Apply(disk, ws)[key] == disk[key]
    decreases |ws|
  {
    if |ws| > 0 {
      Untouched(disk[KeyOf(ws[0]) := ws[0].lines], ws[1..], key);
    }
  }

  /** Two blocks of one source land in the same file exactly when they have
      the same index; then the later block is what remains on disk. */
  lemma SameIndexOverwrites(dir: string, stem: string, blocks: seq<Block>, a: nat, b: nat)
    requires a < b < |blocks|
    ensures var ws := WritesOf(dir, stem, blocks);
      KeyOf(ws[a]) == KeyOf(ws[b]) <==> blocks[a].index == blocks[b].index
  {
    OutputNameInjective(stem, blocks[a].index, blocks[b].index);
  }
}

=== FILE: split_single.dfy ===
/** The single-file script: split one PDB file into per-model files in its
    own directory. It runs the same loop as the batch script, written here as
    the imperative loop it is, and exits with code 2 when the file is
    missing. Unlike the batch, it does not skip files named like its own
    output. */
module SplitSingle {
  import opened Paths
  import opened PdbSplit
  import SplitAll

  /** What the script leaves behind: its exit code and the files it wrote. */
  datatype Outcome = Outcome(exitCode: int, writes: seq<SplitAll.Write>)

  /** The splitting loop with its three state variables and the list of
      blocks written so far; it writes the same blocks as the batch loop. */
  method SplitModels(lines: seq<string>) returns (blocks: seq<Block>)
    ensures blocks == Split(lines)
  {
    var inModel := false;
    var acc: seq<string> := [];
    var idx := 0;
    var out: seq<Block> := [];
    var i := 0;
    assert lines[0..] == lines;
    while i < |lines|
      invariant 0 <= i <= |lines|
      invariant Fold(Scan(inModel, acc, idx, out), lines[i..]) == Fold(Start, lines)
    {
      var line := lines[i];
      FoldAt(Scan(inModel, acc, idx, out), lines, i);
      if IsModelLine(line) {
        inModel := true;
        acc := [line];
        idx := NextIndex(line, idx);
      } else if IsEndLine(line) && inModel {
        acc := acc + [line];
        out := out + [Block(idx, acc, true)];
        inModel := false;
        acc := [];
      } else if inModel {
        acc := acc + [line];
      }
      i := i + 1;
    }
    assert lines[i..] == [];
    if inModel && |acc| > 0 {
      out := out + [Block(TrailingIndex(idx), acc, false)];
    }
    blocks := out;
  }

  /** The whole script for the file `name` in directory `dir`; `present`
      says whether the path exists. */
  method RunScript(dir: string, name: string, present: bool, lines: seq<string>) returns (o: Outcome)
    ensures !present ==> o.exitCode == 2 && o.writes == []
    ensures present ==> o.exitCode == 0
    ensures present ==> |o.writes| == |Split(lines)|
    ensures present ==> forall k :: 0 <= k < |o.writes| ==>
      o.writes[k].dir == dir
      && o.writes[k].name == OutputName(Stem(name), Split(lines)[k].index)
      && o.writes[k].lines == Split(lines)[k].lines
  {
    if !present {
      return Outcome(2, []);
    }
    var blocks := SplitModels(lines);
    o := Outcome(0, SplitAll.WritesOf(dir, Stem(name), blocks));
  }
}

=== FILE: test_set_file.dfy ===
/** The layout and text the test-set script writes: its fixed lines, and
    the table joined into one string. */
module TestSetFile {
  import opened Text
  import opened TestSetTable

  const BeginTable := @"\begin{table}[!ht]"
  const BeginAdjust := @"\begin{adjustwidth}{-2.5in}{0in}"
  const Centering := @"\centering"
  const CaptionStart := @"\caption{{\bf Test set}. " + "Molecules used to run the simulations. " + "This test set contains "
  const CaptionEnd := @" molecules.}"
  const BeginTabular := @"\begin{tabular}{llllll}"
  const TopRule := @"\toprule"
  const ColumnNames := Bold("CASP") + " & " + Bold("Target ID") + " & " + Bold("Molecule") + " & "
    + Bold("Description") + " & " + Bold("Nucleotides") + " & " + Bold("Players") + @" \\"

  /** A column name in bold face. */
  function Bold(s: string): string {
    @"\textbf{" + s + "}"
  }
  const MidRule := @"\midrule"
  const BottomRule := @"\bottomrule"
  const EndTabular := @"\end{tabular}"
  const EndAdjust := @"\end{adjustwidth}"
  const EndTable := @"\end{table}"

  /** The layout the script writes. */
  const Standard := Layout(
    [BeginTable, BeginAdjust, Centering],
    CaptionStart,
    CaptionEnd,
    [BeginTabular, TopRule, ColumnNames, MidRule],
    [BottomRule, EndTabular, EndAdjust, EndTable])

  /** The file contents: the lines joined by line feeds, with none after the
      last. */
  function TableText(mols: seq<Molecule>, sizes: map<string, string>, garn: map<string, string>): string {
    Join(TableLines(Standard, mols, sizes, PlayerCounts(mols, garn)), '\n')
  }

  /** The layout the script writes has the expected shape, no line feed in
      any fixed line, `\midrule` as the header's last line and
      `\bottomrule` as the first closing line. */
  lemma StandardLayout()
    ensures Shaped(Standard) && SingleLines(Standard)
    ensures Standard.columns[3] == MidRule && Standard.closing[0] == BottomRule
  {
    OpeningSingle();
    CaptionSingle();
    ColumnsSingle();
    ClosingSingle();
  }

  lemma OpeningSingle()
    ensures '\n' !in BeginTable && '\n' !in BeginAdjust && '\n' !in Centering
  {
  }

  lemma CaptionSingle()
    ensures '\n' !in CaptionStart && '\n' !in CaptionEnd
  {
  }

  lemma ColumnsSingle()
    ensures '\n' !in BeginTabular && '\n' !in TopRule && '\n' !in ColumnNames && '\n' !in MidRule
  {
  }

  lemma ClosingSingle()
    ensures '\n' !in BottomRule && '\n' !in EndTabular && '\n' !in EndAdjust && '\n' !in EndTable
  {
  }

  /** The text the script writes reads back line by line as its table,
      provided no row holds a line feed; the player cell looked up for each
      molecule is that molecule's player count. */
  lemma TextReadsBack(mols: seq<Molecule>, sizes: map<string, string>, garn: map<string, string>)
    requires forall k :: 0 <= k < |mols| ==> '\n' !in Row(mols[k], Lookup(sizes, mols[k].mol), PlayerCount(garn, mols[k].mol))
    ensures SplitOn(TableText(mols, sizes, garn), '\n') == TableLines(Standard, mols, sizes, PlayerCounts(mols, garn))
    ensures forall k :: 0 <= k < |mols| ==>
      Lookup(PlayerCounts(mols, garn), mols[k].mol) == PlayerCount(garn, mols[k].mol)
  {
    var players := PlayerCounts(mols, garn);
    forall k | 0 <= k < |mols|
      ensures Lookup(players, mols[k].mol) == PlayerCount(garn, mols[k].mol)
    {
    }
    StandardLayout();
    LinesReadBack(Standard, mols, sizes, players);
  }
}

=== FILE: test_set_table.dfy ===
/** The test-set table: one LaTeX `tabular` row per molecule, with the
    molecule's nucleotide count and player count looked up by name, between
    a fixed header and footer. The CSV files arrive already read: the
    molecule records in file order, the size column as a map, and for each
    molecule whose GARN file exists the first line of that file. */
module TestSetTable {
  import opened Wrappers
  import opened Text

  /** One record of the descriptions file, every cell already text. */
  datatype Molecule = Molecule(casp: string, targetId: string, mol: string, desc: string)

  /** The placeholder for a missing value: an en dash. */
  const Missing := "\U{2013}"

  const HLine := @"\hline"

  /** The fixed lines around the rows: the three lines that open the table,
      the caption's text before and after the molecule count, the four lines
      from the tabular environment down to the rule under the column names,
      and the four closing lines. */
  datatype Layout = Layout(
    opening: seq<string>,
    captionStart: string,
    captionEnd: string,
    columns: seq<string>,
    closing: seq<string>)

  /** Three opening lines, four column lines, four closing lines. */
  predicate Shaped(lay: Layout) {
    |lay.opening| == 3 && |lay.columns| == 4 && |lay.closing| == 4
  }

  /** No fixed line holds a line feed. */
  predicate SingleLines(lay: Layout) {
    && (forall i :: 0 <= i < |lay.opening| ==> '\n' !in lay.opening[i])
    && '\n' !in lay.captionStart
    && '\n' !in lay.captionEnd
    && (forall i :: 0 <= i < |lay.columns| ==> '\n' !in lay.columns[i])
    && (forall i :: 0 <= i < |lay.closing| ==> '\n' !in lay.closing[i])
  }

  /** The player count of a molecule: the first line of its GARN file,
      stripped of surrounding whitespace and then of every trailing `;`;
      the placeholder when the file does not exist. */
  function PlayerCount(garn: map<string, string>, mol: string): (r: string)
    ensures mol !in garn ==> r == Missing
    ensures mol in garn ==>
      var s := Strip(garn[mol]);
      |r| <= |s| && r == s[..|r|]
      && (forall i :: |r| <= i < |s| ==> s[i] == ';')
      && (|r| > 0 ==> r[|r| - 1] != ';')
  {
    if mol in garn then TrimEnd(Strip(garn[mol]), ';') else Missing
  }

  /** The `player_counts` dictionary, filled in molecule order. */
  function PlayerCounts(mols: seq<Molecule>, garn: map<string, string>): (m: map<string, string>)
    ensures forall k :: 0 <= k < |mols| ==> mols[k].mol in m
    ensures forall x :: x in m ==> m[x] == PlayerCount(garn, x)
    decreases |mols|
  {
    if |mols| == 0 then map[]
    else
      var init := mols[..|mols| - 1];
      var last := mols[|mols| - 1];
      var prev := PlayerCounts(init, garn);
      PutPlayerCount(init, last, garn, prev);
      assert init + [last] == mols;
      prev[last.mol := PlayerCount(garn, last.mol)]
  }

  /** Storing the next molecule's player count keeps every molecule so far a
      key and every entry its molecule's count. */
  lemma PutPlayerCount(init: seq<Molecule>, last: Molecule, garn: map<string, string>, prev: map<string, string>)
    requires forall k :: 0 <= k < |init| ==> init[k].mol in prev
    requires forall x :: x in prev ==> prev[x] == PlayerCount(garn, x)
    ensures var m := prev[last.mol := PlayerCount(garn, last.mol)];
      && (forall k :: 0 <= k < |init + [last]| ==> (init + [last])[k].mol in m)
      && (forall x :: x in m ==> m[x] == PlayerCount(garn, x))
  {
    var mols := init + [last];
    forall k | 0 <= k < |mols|
      ensures mols[k].mol in prev[last.mol := PlayerCount(garn, last.mol)]
    {
      if k < |init| {
        assert mols[k] == init[k];
      }
    }
  }

  /** `d.get(key, '–')` */
  function Lookup(d: map<string, string>, key: string): string {
    if key in d then d[key] else Missing
  }

  /** One table row: the six cells separated by ` & `, ended by ` \\`. */
  function Row(m: Molecule, nucleotides: string, players: string): string {
    Cells([m.casp, m.targetId, m.mol, m.desc, nucleotides, players]) + @" \\"
  }

  /** Cells separated by ` & `. */
  function Cells(cells: seq<string>): string
    decreases |cells|
  {
    if |cells| == 0 then ""
    else if |cells| == 1 then cells[0]
    else cells[0] + " & " + Cells(cells[1..])
  }

  /** A row is the f-string of the loop: the six values with ` & ` between
      them and ` \\` at the end. */
  lemma RowLayout(m: Molecule, nucleotides: string, players: string)
    ensures Row(m, nucleotides, players)
         == m.casp + " & " + (m.targetId + " & " + (m.mol + " & " + (m.desc
            + " & " + (nucleotides + " & " + players)))) + @" \\"
  {
    var c5 := [players];
    var c4 := [nucleotides] + c5;
    var c3 := [m.desc] + c4;
    var c2 := [m.mol] + c3;
    var c1 := [m.targetId] + c2;
    var c0 := [m.casp] + c1;
    assert c0[1..] == c1 && c1[1..] == c2 && c2[1..] == c3 && c3[1..] == c4 && c4[1..] == c5;
    assert Cells(c5) == players;
    assert Cells(c4) == nucleotides + " & " + players;
    assert Cells(c3) == m.desc + " & " + Cells(c4);
    assert Cells(c2) == m.mol + " & " + Cells(c3);
    assert Cells(c1) == m.targetId + " & " + Cells(c2);
    assert Cells(c0) == m.casp + " & " + Cells(c1);
    assert c0 == [m.casp, m.targetId, m.mol, m.desc, nucleotides, players];
  }

  /** The eight opening lines; the caption states the number of molecules. */
  function Header(lay: Layout, n: nat): seq<string> {
    lay.opening + [lay.captionStart + IntToString(n) + lay.captionEnd] + lay.columns
  }

  /** The loop body for each molecule: its row, then `\hline`. */
  function Body(mols: seq<Molecule>, sizes: map<string, string>, players: map<string, string>): (r: seq<string>)
    ensures |r| == 2 * |mols|
    decreases |mols|
  {
    if |mols| == 0 then []
    else
      var m := mols[0];
      [Row(m, Lookup(sizes, m.mol), Lookup(players, m.mol)), HLine] + Body(mols[1..], sizes, players)
  }

  /** The lines of the table: header and body, the last line dropped (the
      `pop()`), then the closing lines. */
  function TableLines(lay: Layout, mols: seq<Molecule>, sizes: map<string, string>, players: map<string, string>): seq<string> {
    var lines := Header(lay, |mols|) + Body(mols, sizes, players);
    lines[..|lines| - 1] + lay.closing
  }

  // -----------------------------------------------------------------------
  // Properties

  /** The body holds, for the k-th molecule, its row at line 2k and an
      `\hline` at line 2k + 1. */
  lemma {:induction false} BodyAt(mols: seq<Molecule>, sizes: map<string, string>, players: map<string, string>, k: nat)
    requires k < |mols|
    ensures Body(mols, sizes, players)[2 * k] == Row(mols[k], Lookup(sizes, mols[k].mol), Lookup(players, mols[k].mol))
    ensures Body(mols, sizes, players)[2 * k + 1] == HLine
    decreases k
  {
    var rest := Body(mols[1..], sizes, players);
    var m := mols[0];
    var head := [Row(m, Lookup(sizes, m.mol), Lookup(players, m.mol)), HLine];
    assert Body(mols, sizes, players) == head + rest;
    if k > 0 {
      BodyAt(mols[1..], sizes, players, k - 1);
      assert mols[1..][k - 1] == mols[k];
      assert (head + rest)[2 * k] == rest[2 * (k - 1)];
      assert (head + rest)[2 * k + 1] == rest[2 * (k - 1) + 1];
    }
  }

  /** The table is the header, the body without its last line, and the
      closing lines. */
  lemma Decompose(lay: Layout, mols: seq<Molecule>, sizes: map<string, string>, players: map<string, string>)
    requires |mols| >= 1
    ensures var b := Body(mols, sizes, players);
      TableLines(lay, mols, sizes, players) == Header(lay, |mols|) + b[..|b| - 1] + lay.closing
  {
    PopAfterAppend(Header(lay, |mols|), Body(mols, sizes, players));
  }

  /** Dropping the last line of `h + b` drops the last line of `b`. */
  lemma PopAfterAppend<T>(h: seq<T>, b: seq<T>)
    requires |b| > 0
    ensures (h + b)[..|h + b| - 1] == h + b[..|b| - 1]
  {
  }

  /** The table for n >= 1 molecules: 8 header lines, one row per molecule
      in input order with `\hline` between consecutive rows, then the 4
      closing lines; 2n - 1 body lines in all. Each row carries the
      molecule's size (or the placeholder) and player count (or the
      placeholder). */
  lemma TableShape(lay: Layout, mols: seq<Molecule>, sizes: map<string, string>, players: map<string, string>)
    requires Shaped(lay) && |mols| >= 1
    ensures |TableLines(lay, mols, sizes, players)| == 8 + (2 * |mols| - 1) + 4
    ensures TableLines(lay, mols, sizes, players)[..8] == Header(lay, |mols|)
    ensures forall k :: 0 <= k < |mols| ==>
      TableLines(lay, mols, sizes, players)[8 + 2 * k] == Row(mols[k], Lookup(sizes, mols[k].mol), Lookup(players, mols[k].mol))
    ensures forall k :: 0 <= k < |mols| - 1 ==> TableLines(lay, mols, sizes, players)[8 + 2 * k + 1] == HLine
    ensures TableLines(lay, mols, sizes, players)[8 + 2 * |mols| - 1..] == lay.closing
  {
    var n := |mols|;
    var b := Body(mols, sizes, players);
    var m := b[..2 * n - 1];
    var h := Header(lay, n);
    var lines := TableLines(lay, mols, sizes, players);
    assert |h| == 8;
    assert lines == h + m + lay.closing by {
      Decompose(lay, mols, sizes, players);
    }
    ThreeParts(h, m, lay.closing);
    forall k | 0 <= k < n
      ensures lines[8 + 2 * k] == Row(mols[k], Lookup(sizes, mols[k].mol), Lookup(players, mols[k].mol))
      ensures k < n - 1 ==> lines[8 + 2 * k + 1] == HLine
    {
      RowAt(lay, mols, sizes, players, k);
    }
  }

  /** The k-th molecule's row sits at line 8 + 2k, followed by `\hline`
      unless it is the last. */
  lemma RowAt(lay: Layout, mols: seq<Molecule>, sizes: map<string, string>, players: map<string, string>, k: nat)
    requires Shaped(lay) && k < |mols|
    ensures 8 + 2 * k < |TableLines(lay, mols, sizes, players)|
    ensures TableLines(lay, mols, sizes, players)[8 + 2 * k]
      == Row(mols[k], Lookup(sizes, mols[k].mol), Lookup(players, mols[k].mol))
    ensures k < |mols| - 1 ==> TableLines(lay, mols, sizes, players)[8 + 2 * k + 1] == HLine
  {
    var n := |mols|;
    var b := Body(mols, sizes, players);
    var m := b[..2 * n - 1];
    var h := Header(lay, n);
    assert |h| == 8;
    assert TableLines(lay, mols, sizes, players) == h + m + lay.closing by {
      Decompose(lay, mols, sizes, players);
    }
    BodyAt(mols, sizes, players, k);
    MiddleAt(h, m, lay.closing, 2 * k);
    if k < n - 1 {
      MiddleAt(h, m, lay.closing, 2 * k + 1);
    }
  }

  lemma MiddleAt<T>(h: seq<T>, m: seq<T>, f: seq<T>, i: nat)
    requires i < |m|
    ensures |h| + i < |h + m + f|
    ensures (h + m + f)[|h| + i] == m[i]
  {
  }

  /** Where the three parts of `h + m + f` sit. */
  lemma ThreeParts<T>(h: seq<T>, m: seq<T>, f: seq<T>)
    ensures |h + m + f| == |h| + |m| + |f|
    ensures (h + m + f)[..|h|] == h
    ensures (h + m + f)[|h| + |m|..] == f
  {
  }

  /** No `\hline` directly precedes the first closing line: the line before
      it is the last row. */
  lemma NoRuleBeforeClosing(lay: Layout, mols: seq<Molecule>, sizes: map<string, string>, players: map<string, string>)
    requires Shaped(lay) && |mols| >= 1
    ensures var lines := TableLines(lay, mols, sizes, players);
      var i := 8 + 2 * |mols| - 1;
      lines[i] == lay.closing[0] && lines[i - 1] != HLine
  {
    TableShape(lay, mols, sizes, players);
    var lines := TableLines(lay, mols, sizes, players);
    var n := |mols|;
    var m := mols[n - 1];
    var row := Row(m, Lookup(sizes, m.mol), Lookup(players, m.mol));
    assert lines[8 + 2 * (n - 1)] == row;
    assert row[|row| - 1] == '\\';
  }

  /** With no molecules the `pop()` removes the header's last line, the rule
      under the column names: the table is the first seven header lines and
      the closing lines. */
  lemma EmptyTable(lay: Layout, sizes: map<string, string>, players: map<string, string>)
    requires Shaped(lay)
    ensures TableLines(lay, [], sizes, players) == Header(lay, 0)[..7] + lay.closing
  {
  }

  /** The count in the caption reads back as the number of molecules. */
  lemma CaptionCount(lay: Layout, mols: seq<Molecule>, sizes: map<string, string>, players: map<string, string>)
    requires Shaped(lay)
    ensures var caption := TableLines(lay, mols, sizes, players)[3];
      |lay.captionStart| + |lay.captionEnd| < |caption|
      && caption[..|lay.captionStart|] == lay.captionStart
      && caption[|caption| - |lay.captionEnd|..] == lay.captionEnd
      && ParseInt(caption[|lay.captionStart|..|caption| - |lay.captionEnd|]) == Some(|mols|)
  {
    var caption := TableLines(lay, mols, sizes, players)[3];
    var count := IntToString(|mols|);
    assert caption == lay.captionStart + count + lay.captionEnd by {
      PopKeepsHead(Header(lay, |mols|), Body(mols, sizes, players), 3);
    }
    assert caption[|lay.captionStart|..|caption| - |lay.captionEnd|] == count;
    ParseIntRoundTrip(|mols|);
  }

  /** Dropping the last line of `h + b` keeps every line of `h` but its last. */
  lemma PopKeepsHead<T>(h: seq<T>, b: seq<T>, i: nat)
    requires i < |h| - 1
    ensures |(h + b)[..|h + b| - 1]| > i
    ensures (h + b)[..|h + b| - 1][i] == h[i]
  {
  }

  /** Reading the text back line by line gives the table's lines, provided
      no fixed line and no row holds a line feed; in particular the text has
      no trailing line feed. */
  lemma LinesReadBack(lay: Layout, mols: seq<Molecule>, sizes: map<string, string>, players: map<string, string>)
    requires Shaped(lay) && SingleLines(lay)
    requires forall k :: 0 <= k < |mols| ==> '\n' !in Row(mols[k], Lookup(sizes, mols[k].mol), Lookup(players, mols[k].mol))
    ensures SplitOn(Join(TableLines(lay, mols, sizes, players), '\n'), '\n') == TableLines(lay, mols, sizes, players)
  {
    var lines := TableLines(lay, mols, sizes, players);
    forall i | 0 <= i < |lines|
      ensures '\n' !in lines[i]
    {
      LineOfTable(lay, mols, sizes, players, i);
    }
    SplitJoinRoundTrip(lines, '\n');
  }

  /** Each line of the table is a fixed line, the caption or a row. */
  lemma LineOfTable(lay: Layout, mols: seq<Molecule>, sizes: map<string, string>, players: map<string, string>, i: nat)
    requires Shaped(lay) && SingleLines(lay)
    requires forall k :: 0 <= k < |mols| ==> '\n' !in Row(mols[k], Lookup(sizes, mols[k].mol), Lookup(players, mols[k].mol))
    requires i < |TableLines(lay, mols, sizes, players)|
    ensures '\n' !in TableLines(lay, mols, sizes, players)[i]
  {
    if |mols| == 0 {
      EmptyLineSingle(lay, sizes, players, i);
    } else {
      FilledLineSingle(lay, mols, sizes, players, i);
    }
  }

  lemma EmptyLineSingle(lay: Layout, sizes: map<string, string>, players: map<string, string>, i: nat)
    requires Shaped(lay) && SingleLines(lay)
    requires i < |TableLines(lay, [], sizes, players)|
    ensures '\n' !in TableLines(lay, [], sizes, players)[i]
  {
    var h := Header(lay, 0);
    assert |h| == 8;
    assert TableLines(lay, [], sizes, players) == h[..7] + [] + lay.closing by {
      EmptyTable(lay, sizes, players);
    }
    PartAt(h[..7], [], lay.closing, i);
    if i < 7 {
      HeaderSingleLines(lay, 0, i);
    }
  }

  lemma FilledLineSingle(lay: Layout, mols: seq<Molecule>, sizes: map<string, string>, players: map<string, string>, i: nat)
    requires Shaped(lay) && SingleLines(lay) && |mols| > 0
    requires forall k :: 0 <= k < |mols| ==> '\n' !in Row(mols[k], Lookup(sizes, mols[k].mol), Lookup(players, mols[k].mol))
    requires i < |TableLines(lay, mols, sizes, players)|
    ensures '\n' !in TableLines(lay, mols, sizes, players)[i]
  {
    var n := |mols|;
    var h := Header(lay, n);
    var b := Body(mols, sizes, players);
    var m := b[..2 * n - 1];
    assert |h| == 8;
    assert TableLines(lay, mols, sizes, players) == h + m + lay.closing by {
      Decompose(lay, mols, sizes, players);
    }
    PartAt(h, m, lay.closing, i);
    if i < 8 {
      HeaderSingleLines(lay, n, i);
    } else if i < 8 + 2 * n - 1 {
      BodyLineSingle(mols, sizes, players, i - 8);
      assert m[i - 8] == b[i - 8];
    }
  }

  lemma BodyLineSingle(mols: seq<Molecule>, sizes: map<string, string>, players: map<string, string>, j: nat)
    requires forall k :: 0 <= k < |mols| ==> '\n' !in Row(mols[k], Lookup(sizes, mols[k].mol), Lookup(players, mols[k].mol))
    requires j < 2 * |mols|
    ensures '\n' !in Body(mols, sizes, players)[j]
  {
    var k := j / 2;
    BodyAt(mols, sizes, players, k);
    if j % 2 == 0 {
      assert j == 2 * k;
    } else {
      assert j == 2 * k + 1;
      assert '\n' !in HLine;
    }
  }

  /** No header line holds a line feed when no fixed line does. */
  lemma HeaderSingleLines(lay: Layout, n: nat, i: nat)
    requires Shaped(lay) && SingleLines(lay) && i < 8
    ensures '\n' !in Header(lay, n)[i]
  {
    var count := IntToString(n);
    var caption := lay.captionStart + count + lay.captionEnd;
    assert AllDigits(count);
    assert '\n' !in count;
    assert '\n' !in caption;
    PartAt(lay.opening, [caption], lay.columns, i);
  }

  /** The element at `i` of `h + m + f`, by the part it falls in. */
  lemma PartAt<T>(h: seq<T>, m: seq<T>, f: seq<T>, i: nat)
    requires i < |h| + |m| + |f|
    ensures |h + m + f| == |h| + |m| + |f|
    ensures (h + m + f)[i] ==
      if i < |h| then h[i] else if i < |h| + |m| then m[i - |h|] else f[i - |h| - |m|]
  {
  }
}

=== FILE: text.dfy ===
/** String helpers with the meaning Python gives them: prefix and suffix
    tests, substring search, whitespace splitting and stripping, decimal
    printing and parsing of integers, and joining/splitting on a separator. */
module Text {
  import opened Wrappers

  /** The ASCII characters that `str.split()` and `str.strip()` treat as
      whitespace: space, tab, line feed, vertical tab, form feed, carriage
      return and the four separators 0x1C-0x1F. */
  predicate IsSpace(c: char) {
    c == ' ' || ('\t' <= c <= '\r') || ('\U{001C}' <= c <= '\U{001F}')
  }

  predicate IsDigit(c: char) {
    '0' <= c <= '9'
  }

  /** ASCII letters and digits: the class `[A-Za-z0-9]` of Python's `re`. */
  predicate IsAlnum(c: char) {
    IsDigit(c) || ('A' <= c <= 'Z') || ('a' <= c <= 'z')
  }

  predicate AllDigits(s: string) {
    forall i :: 0 <= i < |s| ==> IsDigit(s[i])
  }

  predicate NoSpace(s: string) {
    forall i :: 0 <= i < |s| ==> !IsSpace(s[i])
  }

  /** `s.startswith(p)` */
  predicate StartsWith(s: string, p: string) {
    |p| <= |s| && s[..|p|] == p
  }

  /** `s.endswith(p)` */
  predicate EndsWith(s: string, p: string) {
    |p| <= |s| && s[|s| - |p|..] == p
  }

  /** `t in s` for strings: `t` occurs somewhere in `s` as a contiguous run. */
  predicate Contains(s: string, t: string)
    decreases |s|
  {
    StartsWith(s, t) || (|s| > 0 && Contains(s[1..], t))
  }

  lemma {:induction false} ContainsInside(a: string, t: string, b: string)
    ensures Contains(a + t + b, t)
  {
    if |a| == 0 {
      assert (a + t + b)[..|t|] == t;
    } else {
      assert (a + t + b)[1..] == a[1..] + t + b;
      ContainsInside(a[1..], t, b);
    }
  }

  /** `t` occurs in `s` starting at position `i`. */
  predicate OccursAt(s: string, t: string, i: int) {
    0 <= i <= |s| - |t| && s[i..i + |t|] == t
  }

  /** `Contains` means exactly that `t` occurs at some position of `s`. */
  lemma {:induction false} ContainsIff(s: string, t: string)
    ensures Contains(s, t) <==> exists i :: OccursAt(s, t, i)
    decreases |s|
  {
    if StartsWith(s, t) {
      assert OccursAt(s, t, 0);
    }
    if |s| > 0 {
      ContainsIff(s[1..], t);
      if exists i :: OccursAt(s, t, i) {
        var i :| OccursAt(s, t, i);
        if i > 0 {
          assert s[1..][i - 1..i - 1 + |t|] == s[i..i + |t|];
          assert OccursAt(s[1..], t, i - 1);
        } else {
          assert s[..|t|] == s[0..|t|];
        }
      }
      if exists i :: OccursAt(s[1..], t, i) {
        var i :| OccursAt(s[1..], t, i);
        assert s[1..][i..i + |t|] == s[i + 1..i + 1 + |t|];
        assert OccursAt(s, t, i + 1);
      }
    }
  }

  // ---------------------------------------------------------------------
  // Whitespace splitting and stripping

  /** The index of the first non-whitespace character of `s` at or after
      `i`; `|s|` when there is none. */
  function SkipSpaces(s: string, i: nat): (r: nat)
    requires i <= |s|
    ensures i <= r <= |s|
    ensures forall k :: i <= k < r ==> IsSpace(s[k])
    ensures r < |s| ==> !IsSpace(s[r])
    decreases |s| - i
  {
    if i < |s| && IsSpace(s[i]) then SkipSpaces(s, i + 1) else i
  }

  /** The end of `s[lo..j]` once its trailing whitespace is cut off. */
  function BackSpaces(s: string, lo: nat, j: nat): (r: nat)
    requires lo <= j <= |s|
    ensures lo <= r <= j
    ensures forall k :: r <= k < j ==> IsSpace(s[k])
    ensures r > lo ==> !IsSpace(s[r - 1])
    decreases j
  {
    if j > lo && IsSpace(s[j - 1]) then BackSpaces(s, lo, j - 1) else j
  }

  /** The index of the first whitespace character of `s` at or after `i`;
      `|s|` when there is none. */
  function WordEnd(s: string, i: nat): (r: nat)
    requires i <= |s|
    ensures i <= r <= |s|
    ensures forall k :: i <= k < r ==> !IsSpace(s[k])
    ensures r < |s| ==> IsSpace(s[r])
    decreases |s| - i
  {
    if i < |s| && !IsSpace(s[i]) then WordEnd(s, i + 1) else i
  }

  /** `s.split()`: the maximal runs of non-whitespace characters, in order. */
  function Tokens(s: string): seq<string> {
    TokensFrom(s, 0)
  }

  /** The tokens of `s[i..]`. */
  function TokensFrom(s: string, i: nat): seq<string>
    requires i <= |s|
    decreases |s| - i
  {
    var a := SkipSpaces(s, i);
    if a == |s| then []
    else
      var b := WordEnd(s, a);
      [s[a..b]] + TokensFrom(s, b)
  }

  /** A token of `str.split()`: non-empty and free of whitespace. */
  predicate IsWord(w: string) {
    |w| > 0 && NoSpace(w)
  }

  /** Every token is a non-empty run of non-whitespace characters. */
  lemma {:induction false} TokensFromAreWords(s: string, i: nat)
    requires i <= |s|
    ensures forall k :: 0 <= k < |TokensFrom(s, i)| ==> IsWord(TokensFrom(s, i)[k])
    decreases |s| - i
  {
    var a := SkipSpaces(s, i);
    if a < |s| {
      var b := WordEnd(s, a);
      TokensFromAreWords(s, b);
      var w := s[a..b];
      assert IsWord(w) by {
        forall k | 0 <= k < |w| ensures !IsSpace(w[k]) {
          assert w[k] == s[a + k];
        }
      }
      var r := TokensFrom(s, i);
      forall k | 0 <= k < |r| ensures IsWord(r[k]) {
        if k > 0 {
          assert r[k] == TokensFrom(s, b)[k - 1];
        }
      }
    }
  }

  /** When `s[i..]` starts with whitespace up to `a` followed by the
      whitespace-free run `s[a..b]` ending at whitespace or the end, that run
      is the first token, and the rest are the tokens after it. */
  lemma TokenAt(s: string, i: nat, a: nat, b: nat)
    requires i <= a < b <= |s|
    requires forall k :: i <= k < a ==> IsSpace(s[k])
    requires forall k :: a <= k < b ==> !IsSpace(s[k])
    requires b == |s| || IsSpace(s[b])
    ensures TokensFrom(s, i) == [s[a..b]] + TokensFrom(s, b)
  {
    assert !IsSpace(s[a]);
    assert SkipSpaces(s, i) == a;
    if b < |s| {
      assert IsSpace(s[b]);
    }
    assert WordEnd(s, a) == b;
  }

  /** In `w + pad + d + rest`, with `w` and `d` single tokens, `pad` non-empty
      whitespace and `rest` empty or starting with whitespace, the second
      token is `d`. */
  lemma SecondToken(w: string, pad: string, d: string, rest: string)
    requires IsWord(w) && IsWord(d)
    requires |pad| > 0 && forall k :: 0 <= k < |pad| ==> IsSpace(pad[k])
    requires |rest| == 0 || IsSpace(rest[0])
    ensures |Tokens(w + pad + d + rest)| >= 2
    ensures Tokens(w + pad + d + rest)[1] == d
  {
    var s := w + pad + d + rest;
    var a := |w| + |pad|;
    var b := a + |d|;
    forall k | 0 <= k < |w|
      ensures !IsSpace(s[k])
    {
      assert s[k] == w[k];
    }
    forall k | |w| <= k < a
      ensures IsSpace(s[k])
    {
      assert s[k] == pad[k - |w|];
    }
    forall k | a <= k < b
      ensures !IsSpace(s[k])
    {
      assert s[k] == d[k - a];
    }
    if b < |s| {
      assert s[b] == rest[0];
    }
    TokenAt(s, 0, 0, |w|);
    TokenAt(s, |w|, a, b);
    assert s[a..b] == d;
  }

  /** A text of whitespace only has no tokens. */
  lemma NoTokens(s: string, i: nat)
    requires i <= |s|
    requires forall k :: i <= k < |s| ==> IsSpace(s[k])
    ensures TokensFrom(s, i) == []
  {
  }

  /** `s.strip()`: the slice of `s` left once the leading and trailing
      whitespace is removed; it neither starts nor ends with whitespace. */
  function Strip(s: string): (r: string)
    ensures var i := SkipSpaces(s, 0);
      && i + |r| <= |s| && r == s[i..i + |r|]
      && (forall k :: 0 <= k < i ==> IsSpace(s[k]))
      && (forall k :: i + |r| <= k < |s| ==> IsSpace(s[k]))
    ensures |r| > 0 ==> !IsSpace(r[0]) && !IsSpace(r[|r| - 1])
  {
    var i := SkipSpaces(s, 0);
    s[i..BackSpaces(s, i, |s|)]
  }

  /** `s.rstrip(c)` for one character `c`: every trailing `c` removed. */
  function TrimEnd(s: string, c: char): (r: string)
    ensures |r| <= |s| && r == s[..|r|]
    ensures forall i :: |r| <= i < |s| ==> s[i] == c
    ensures |r| > 0 ==> r[|r| - 1] != c
    decreases |s|
  {
    if |s| > 0 && s[|s| - 1] == c then TrimEnd(s[..|s| - 1], c) else s
  }

  // ---------------------------------------------------------------------
  // Decimal integers

  function DigitValue(c: char): (d: nat)
    requires IsDigit(c)
    ensures d < 10
  {
    c as int - '0' as int
  }

  function DigitChar(d: nat): (c: char)
    requires d < 10
    ensures IsDigit(c) && DigitValue(c) == d
  {
    ('0' as int + d) as char
  }

  /** The value of a string of decimal digits, most significant first. */
  function DigitsValue(s: string): nat
    requires AllDigits(s)
    decreases |s|
  {
    if |s| == 0 then 0 else 10 * DigitsValue(s[..|s| - 1]) + DigitValue(s[|s| - 1])
  }

  /** `str(n)` for a natural number: its shortest decimal form. */
  function NatToString(n: nat): (r: string)
    ensures |r| > 0 && AllDigits(r)
    ensures '.' !in r && '-' !in r && '+' !in r
    ensures r[0] == '0' <==> n == 0
    ensures |r| == 1 || r[0] != '0'
    decreases n
  {
    if n < 10 then [DigitChar(n)] else NatToString(n / 10) + [DigitChar(n % 10)]
  }

  /** `str(i)`: a minus sign for negative values, then the digits of `|i|`. */
  function IntToString(i: int): (r: string)
    ensures |r| > 0
    ensures '.' !in r && '+' !in r
  {
    if i < 0 then "-" + NatToString(-i) else NatToString(i)
  }

  /** `int(s)` for a whitespace-free token: an optional sign followed by at
      least one decimal digit; anything else fails. */
  function ParseInt(s: string): Option<int> {
    if |s| > 0 && (s[0] == '+' || s[0] == '-') then
      match ParseDigits(s[1..])
      case None => None
      case Some(v) => Some(if s[0] == '-' then -(v as int) else v)
    else ParseDigits(s)
  }

  /** The value of a non-empty string of decimal digits; `None` for any
      other string. */
  function ParseDigits(s: string): Option<nat>
    decreases |s|
  {
    if |s| == 0 || !IsDigit(s[|s| - 1]) then None
    else if |s| == 1 then Some(DigitValue(s[0]))
    else
      match ParseDigits(s[..|s| - 1])
      case None => None
      case Some(v) => Some(10 * v + DigitValue(s[|s| - 1]))
  }

  lemma {:induction false} ParseDigitsValue(s: string)
    requires |s| > 0 && AllDigits(s)
    ensures ParseDigits(s) == Some(DigitsValue(s))
    decreases |s|
  {
    if |s| > 1 {
      ParseDigitsValue(s[..|s| - 1]);
    } else {
      assert s[..0] == [];
    }
  }

  lemma {:induction false} ParseDigitsRejects(s: string, k: nat)
    requires k < |s| && !IsDigit(s[k])
    ensures ParseDigits(s) == None
    decreases |s|
  {
    if k < |s| - 1 {
      ParseDigitsRejects(s[..|s| - 1], k);
    }
  }

  /** The text after an optional leading `+` or `-`. */
  function Unsigned(s: string): (u: string)
    ensures u == s || (|s| > 0 && (s[0] == '+' || s[0] == '-') && u == s[1..])
  {
    if |s| > 0 && (s[0] == '+' || s[0] == '-') then s[1..] else s
  }

  /** `ParseInt` succeeds exactly when the text after an optional sign is a
      non-empty run of decimal digits, and then yields the value of those
      digits, negated after a `-`. */
  lemma ParseIntIff(s: string)
    ensures var u := Unsigned(s);
      |u| > 0 && AllDigits(u) ==>
        ParseInt(s) == Some(if s[0] == '-' then -(DigitsValue(u) as int) else DigitsValue(u))
    ensures !(|Unsigned(s)| > 0 && AllDigits(Unsigned(s))) ==> ParseInt(s) == None
  {
    var u := Unsigned(s);
    if |u| > 0 && AllDigits(u) {
      ParseDigitsValue(u);
    } else if |u| > 0 {
      var k :| 0 <= k < |u| && !IsDigit(u[k]);
      ParseDigitsRejects(u, k);
    }
  }

  /** A few readings of `int`: a plus sign and leading zeros are accepted,
      `-0` is zero, and a bare sign or the empty text is rejected. */
  lemma ParseIntExamples()
    ensures ParseInt("+5") == Some(5)
    ensures ParseInt("007") == Some(7)
    ensures ParseInt("-0") == Some(0)
    ensures ParseInt("") == None && ParseInt("+") == None && ParseInt("-") == None
  {
    ParseIntIff("+5");
    ParseIntIff("007");
    ParseIntIff("-0");
    ParseIntIff("+");
    ParseIntIff("-");
  }

  lemma {:induction false} NatToStringValue(n: nat)
    ensures DigitsValue(NatToString(n)) == n
    decreases n
  {
    var r := NatToString(n);
    if n >= 10 {
      NatToStringValue(n / 10);
      assert r[..|r| - 1] == NatToString(n / 10);
    }
  }

  /** Reading back what `str` printed gives the same integer. */
  lemma ParseIntRoundTrip(i: int)
    ensures ParseInt(IntToString(i)) == Some(i)
  {
    if i < 0 {
      ParseNegative(-i);
    } else {
      ParseNatural(i);
    }
  }

  lemma ParseNatural(n: nat)
    ensures ParseInt(NatToString(n)) == Some(n)
  {
    NatToStringValue(n);
    ParseDigitsValue(NatToString(n));
    assert NatToString(n)[0] != '+' && NatToString(n)[0] != '-';
  }

  lemma ParseNegative(n: nat)
    requires n > 0
    ensures ParseInt("-" + NatToString(n)) == Some(-(n as int))
  {
    var t := NatToString(n);
    var s := "-" + t;
    NatToStringValue(n);
    ParseDigitsValue(t);
    assert s[0] == '-' && s[1..] == t;
  }

  /** `str(i)` is a single token: non-empty and free of whitespace. */
  lemma IntToStringWord(i: int)
    ensures IsWord(IntToString(i))
  {
    var r := IntToString(i);
    if i < 0 {
      var d := NatToString(-i);
      assert r == "-" + d;
      forall k | 0 <= k < |r|
        ensures !IsSpace(r[k])
      {
        if k > 0 {
          assert r[k] == d[k - 1];
        }
      }
    }
  }

  /** Distinct integers print differently. */
  lemma IntToStringInjective(i: int, j: int)
    ensures IntToString(i) == IntToString(j) <==> i == j
  {
    if IntToString(i) == IntToString(j) {
      ParseIntRoundTrip(i);
      ParseIntRoundTrip(j);
    }
  }

  /** A token with a character other than a sign or digit in it is not a
      number. */
  lemma ParseIntRejects(s: string, k: nat)
    requires k < |s| && !IsDigit(s[k])
    requires k > 0 || (s[0] != '+' && s[0] != '-')
    ensures ParseInt(s) == None
  {
    if |s| > 0 && (s[0] == '+' || s[0] == '-') {
      assert !IsDigit(s[1..][k - 1]);
      ParseDigitsRejects(s[1..], k - 1);
    } else {
      ParseDigitsRejects(s, k);
    }
  }

  // ---------------------------------------------------------------------
  // Joining and splitting on a separator character

  /** `sep.join(parts)` for a one-character separator. */
  function Join(parts: seq<string>, sep: char): string
    decreases |parts|
  {
    if |parts| == 0 then ""
    else if |parts| == 1 then parts[0]
    else parts[0] + [sep] + Join(parts[1..], sep)
  }

  /** `s.split(sep)`: the pieces between occurrences of `sep`; there is always
      at least one piece. */
  function SplitOn(s: string, sep: char): (r: seq<string>)
    ensures |r| > 0
    ensures forall k :: 0 <= k < |r| ==> sep !in r[k]
    decreases |s|
  {
    if sep !in s then [s]
    else
      var i := IndexOf(s, sep);
      [s[..i]] + SplitOn(s[i + 1..], sep)
  }

  /** The position of the first `c` in `s`. */
  function IndexOf(s: string, c: char): (i: nat)
    requires c in s
    ensures i < |s| && s[i] == c && c !in s[..i]
    decreases |s|
  {
    if s[0] == c then 0 else 1 + IndexOf(s[1..], c)
  }

  /** Splitting a joined text on the separator gives the parts back, provided
      no part contains the separator itself. */
  lemma {:induction false} SplitJoinRoundTrip(parts: seq<string>, sep: char)
    requires |parts| > 0
    requires forall k :: 0 <= k < |parts| ==> sep !in parts[k]
    ensures SplitOn(Join(parts, sep), sep) == parts
    decreases |parts|
  {
    if |parts| > 1 {
      var rest := Join(parts[1..], sep);
      var s := parts[0] + [sep] + rest;
      assert s[|parts[0]|] == sep;
      assert sep in s;
      IndexOfAfter(parts[0], sep, rest);
      assert s[..|parts[0]|] == parts[0];
      assert s[|parts[0]| + 1..] == rest;
      SplitJoinRoundTrip(parts[1..], sep);
    }
  }

  lemma IndexOfAfter(a: string, c: char, b: string)
    requires c !in a
    ensures c in a + [c] + b && IndexOf(a + [c] + b, c) == |a|
  {
    var s := a + [c] + b;
    assert s[|a|] == c;
    assert s[..|a|] == a;
  }

  /** `s.rfind(c)`: the position of the last `c` in `s`, or -1. */
  function LastIndexOf(s: string, c: char): (i: int)
    ensures -1 <= i < |s|
    ensures i >= 0 ==> s[i] == c
    ensures forall k :: i < k < |s| ==> s[k] != c
    decreases |s|
  {
    if |s| == 0 then -1
    else if s[|s| - 1] == c then |s| - 1
    else LastIndexOf(s[..|s| - 1], c)
  }
}

=== FILE: wrappers.dfy ===
/** The optional value used wherever the scripts can come up empty-handed:
    a failed `int()` conversion, a file name without a PDB id. */
module Wrappers {

  datatype Option<+T> = None | Some(value: T) {

    /** The wrapped value, or `default` when there is none. */
    function GetOr(default: T): T {
      match this
      case Some(v) => v
      case None => default
    }
  }
}
